=== FILE: README.md ===
# sar: HTTP response pipeline, session store, command queue, simulated S7 reader

A Dafny model of four small pieces of the `sar` tool library:

- **`HttpResponse`** (`sar/Http/HttpResponce.cs`). The constructor handles one request.
  - It strips a case-insensitive `-pdf-render` suffix from the path and remembers it.
  - It picks a content source by a first-match rule: the primary controller for the empty path, a nested PDF render for a `-pdf` path, the debug action for `info`, a registered controller action, or else a static file.
  - It chooses the status: 200 for ordinary content, 500 for error content or any exception.
  - `ConstructResponse` then frames the rendered body as an HTTP/1.0 response: status line, fixed header block, empty line, body, following section 4 of RFC 1945.
- **`HttpSession`** (`sar/Http/HttpSession.cs`). A process-wide dictionary from session ID to session, with `Contains`, the get-or-create `Find`, the registering constructor and the derived `ExpiryDate`.
- **`CommandQueue`** (`sar/FSM/CommandQueue.cs`). A command container whose `DequeueCommand` returns the most recently queued command (last in, first out).
- **`Adapter_Sim.ReadBytesRaw`** (`sar/S7Siemens/S7Adapter_Sim.cs`). The simulated PLC read, whose byte `i` is `i % 255`.

The project is organised as follows:

- **Modules.** `Wrappers` (`Option`), `Ascii` (bytes and `Encoding.ASCII`), `Text` (ASCII `ToLower`, `EndsWith`, `StringHelper.TrimEnd`, ordinal `String.Replace`, `int.ToString`) and `Framing` (CRLF-terminated header lines, the empty line, header fields, and a reader that splits a buffer back into lines and body) support `HttpResponse`.
- **`HttpResponseProperties`** holds the lemmas about `HttpResponse`.
- **`HttpSession`, `CommandQueue` and `S7AdapterSim`** follow their C# classes.
- **Collaborators.** `HttpController`, `HttpContent.Read`, `HttpContent.GetPDF`, `ErrorController.Display` and `AssemblyInfo.SarVersion` are fields of the `Env` datatype.
- **Inputs.** `DateTime.Now` and `Guid.NewGuid()` are arguments. The session constructor reads the clock twice, once for `CreationDate` and once for `LastRequest`, so it takes two readings that may differ.
- **Exceptions.** They become values: `Threw` from a content source, `RenderFails` from `Render()`, and `Escaped` when even the error page fails to render.

Points where the code behaves in a way a reader might not expect; the model follows the code:

- **The `-pdf-render` strip.** It is applied once and is not re-resolved (`StripAppliedOnce`). The nested request for `a-pdf-pdf` is stripped to `a-pdf`, which takes the PDF branch a second time. So a PDF request is not always resolved in a single nested hop (`NestedRequestCanHopAgain`).
- **Session IDs.** They are `Guid.ToString("D")`: 36 characters with hyphens, not 32 bare hex digits (`IsGuidD`).
- **The outer response to a `-pdf` request.** It does not carry `X-Content-Type-Options: pdf-render`. Only the nested `-pdf-render` request sets the flag (`Respond`, `PdfRenderFieldIff`).
- **`String.Replace`.** It replaces every occurrence of the path in the nested URL. For the bare path `-pdf` this also removes the `-pdf` of the appended suffix, and the nested URL ends in `/-render` (`PdfUrlOfBarePdfPath`).

## Model

| member | source | states |
|---|---|---|
| HttpResponse.StripPdfRender | sar/Http/HttpResponce.cs:63-67 | the flag is set exactly when the lower-cased path ends in `-pdf-render`; then the path loses exactly those 11 trailing characters; otherwise the path is unchanged |
| HttpResponseProperties.StripRemovesOneSuffix | sar/Http/HttpResponce.cs:63-67 | any path `p + s` where `s` lower-cases to `-pdf-render` (in any letter case) is stripped to `p` with the flag set |
| HttpResponseProperties.StripAppliedOnce | sar/Http/HttpResponce.cs:63-67 | the strip happens once: a doubled suffix leaves one `-pdf-render` on the working path |
| HttpResponse.StatusValue | sar/Http/HttpResponce.cs:26-33 | the enum's numeric values 200, 302, 404 and 500; the body is the definition |
| HttpResponse.StatusName | sar/Http/HttpResponce.cs:126 | `Enum.GetName`: the member's identifier, used as the reason phrase; the body is the definition |
| HttpResponse.Working | sar/Http/HttpResponce.cs:65 | the request after the strip: the path is the stripped one, and the full URL and port are unchanged |
| HttpResponse.PdfUrl | sar/Http/HttpResponce.cs:78-80 | the body is the definition: `http://localhost:` + port + full URL + `-pdf-render`, with every occurrence of the path replaced by the path minus its last four characters; what it yields is stated by `PdfUrlOfTypicalRequest` and `PdfUrlOfBarePdfPath` |
| HttpResponse.SelectBranch | sar/Http/HttpResponce.cs:69-95 | first match: the chosen rule's condition holds and the condition of every earlier rule (empty path, `-pdf` suffix, `info`, registered action) fails; the PDF branch gets `PdfUrl`; the action branch is taken only when `ActionExists` answers yes, and an exception out of that test is a branch of its own; the static branch gets the stripped path unchanged |
| HttpResponse.Resolve | sar/Http/HttpResponce.cs:69-95 | the body is the definition: the empty path throws `Primary Controller Not Defined` or `Primary Action Not Defined` before it calls `RequestPrimary`; the PDF branch calls `GetPDF` with its URL; `info` calls the `Debug`/`Info` action; the action branch calls `RequestAction`; a throwing action test is rethrown; the static branch calls `Read` |
| HttpResponse.Attempted | sar/Http/HttpResponce.cs:61-105 | the body is the definition: the whole `try` block, that is, strip, selection, the content source, then `Answer`; its outcomes are stated by `StatusOkIff`, `SuccessCarriesSelectedContent` and `FailureAnsweredBy500` |
| HttpResponse.IntendedStatus | sar/Http/HttpResponce.cs:106-116 | the error page is told NOTFOUND exactly for a missing file, and SERVERERROR otherwise |
| HttpResponseProperties.ActionCheckFailureSentAs500 | sar/Http/HttpResponce.cs:88-116 | an exception thrown by the `ActionExists` test is caught like one from a content source: the attempt fails with it, and the response, when the error page renders, is that page with status 500 |
| HttpResponseProperties.InfoInAnyCase | sar/Http/HttpResponce.cs:84-87 | a path that lower-cases to `info` is not stripped and selects the debug action |
| HttpResponseProperties.EmptyPathWithoutPrimary | sar/Http/HttpResponce.cs:69-75 | the empty path with no primary controller or no primary action fails with that configuration error, and the response is the error page with status 500 |
| HttpResponseProperties.PdfUrlOfTypicalRequest | sar/Http/HttpResponce.cs:78-80 | when the full URL ends in the path and the path occurs nowhere earlier, the nested URL is `http://localhost:<port>` + the full URL minus `-pdf` + `-pdf-render` |
| HttpResponseProperties.PdfRequestExample | sar/Http/HttpResponce.cs:76-83 | `report-pdf` on port 8080 asks the PDF renderer for `http://localhost:8080/report-pdf-render` |
| HttpResponseProperties.PdfUrlOfBarePdfPath | sar/Http/HttpResponce.cs:78-80 | every occurrence of the path is replaced, so the bare path `-pdf` yields `http://localhost:80/-render` |
| HttpResponseProperties.NestedRequestStrip | sar/Http/HttpResponce.cs:63-67 | the nested request path (the path minus `-pdf`, then `-pdf-render`) is stripped back to the path minus `-pdf`, with the PDF-render flag set |
| HttpResponseProperties.NestedRequestCanHopAgain | sar/Http/HttpResponce.cs:76-80 | the nested request for `a-pdf-pdf` selects the PDF branch again |
| HttpResponse.Answer | sar/Http/HttpResponce.cs:97-104 | content that renders is answered with status 500 exactly for error content and 200 otherwise, framed with its own bytes; a failing render becomes the failure |
| HttpResponse.Recover | sar/Http/HttpResponce.cs:106-116 | every caught failure is answered by the error page with status 500 (NOTFOUND only reaches the error page); if the error page fails to render, the exception escapes |
| HttpResponse.Respond | sar/Http/HttpResponce.cs:61-116 | whenever the `try` block succeeds, the response is exactly the one it built from the selected content; a built response has status 200 or 500, is framed, carries the PDF-render flag exactly when the request path ended in `-pdf-render`, and has status 200 only for non-error content; an escape happens only after a failed attempt; built or escaped, the caller's request object is left with the stripped path and its other fields unchanged |
| HttpResponseProperties.SuccessCarriesSelectedContent | sar/Http/HttpResponce.cs:74-104 | when the selected source produces content that renders, the response is built and carries exactly that content, framed with its own rendered bytes |
| HttpResponseProperties.PdfRequestAnswered | sar/Http/HttpResponce.cs:61-104 | end to end, `report-pdf` on port 8080 is answered with status 200 and the PDF renderer's content for `http://localhost:8080/report-pdf-render`, framed without the PDF-render mark, whenever that content is not an error and renders |
| HttpResponseProperties.StatusOkIff | sar/Http/HttpResponce.cs:97-116 | status 200 exactly when the selected source produced non-error content that rendered |
| HttpResponseProperties.FailureAnsweredBy500 | sar/Http/HttpResponce.cs:106-116 | after any failure, the response exists exactly when the error page renders; its status is 500 and its content is that page; otherwise the page's exception escapes |
| HttpResponseProperties.MissingFileSentAs500 | sar/Http/HttpResponce.cs:106-110 | a missing static file tells the error page NOTFOUND, but the status sent is 500 |
| HttpResponse.ConstructResponse | sar/Http/HttpResponce.cs:119-150 | the output is the header bytes followed by exactly the body bytes |
| HttpResponse.StatusLine | sar/Http/HttpResponce.cs:126-127 | the body is the definition: `HTTP/1.0`, the numeric code and the reason phrase, separated by spaces; `StatusLines` gives the two lines sent |
| HttpResponse.HeaderFields | sar/Http/HttpResponce.cs:131-145 | the body is the definition: the fields in the order written; their order, values and safety are stated by the lemmas below |
| HttpResponse.HeaderLines | sar/Http/HttpResponce.cs:126-147 | the body is the definition: the status line followed by one `Name: value` line per field; see `HeaderFieldOrder` |
| HttpResponseProperties.StatusLines | sar/Http/HttpResponce.cs:126-127 | the status line of a failure is `HTTP/1.0 500 SERVERERROR`; of a success, `HTTP/1.0 200 OK` |
| HttpResponseProperties.HeaderFieldOrder | sar/Http/HttpResponce.cs:131-147 | the status line comes first, then the fields `Content-Type`, `Content-Length`, `Server`, the four CORS fields, `X-Content-Type-Options` (in PDF-render mode only) and `Connection`, in that order; the last line is `Connection: close` |
| HttpResponseProperties.FieldNamesWellFormed | sar/Http/HttpResponce.cs:131-145 | every header name is non-empty ASCII without CR or colon, and no two names are alike |
| Framing.FieldValuesRecovered | sar/Http/HttpResponce.cs:131-145 | when field names are colon-free and pairwise different, a reader looking up any field's name finds exactly the value written for it |
| HttpResponseProperties.HeaderFieldsRecovered | sar/Http/HttpResponce.cs:131-145 | a reader of the head lines finds, for every header field, the value written for it |
| HttpResponseProperties.ContentTypeAndServerFields | sar/Http/HttpResponce.cs:131-133 | a reader finds `Content-Type` carrying the content's type and `Server` carrying `sar\` followed by the version |
| HttpResponseProperties.CorsFields | sar/Http/HttpResponce.cs:135-138 | a reader finds the four CORS fields with the values `*`, `POST, GET`, `1728000` and `true` |
| HttpResponseProperties.ConnectionField | sar/Http/HttpResponce.cs:145 | a reader finds `Connection` with the value `close`, in both modes |
| HttpResponseProperties.ContentLengthField | sar/Http/HttpResponce.cs:132 | a reader looking up `Content-Length` finds the body length, and parsing it gives that length back |
| HttpResponseProperties.PdfRenderFieldIff | sar/Http/HttpResponce.cs:141 | a reader finds `X-Content-Type-Options: pdf-render` if and only if the response is in PDF-render mode |
| HttpResponseProperties.HeaderLinesSafe | sar/Http/HttpResponce.cs:126-147 | with an ASCII content type and version without CR, every header line is non-empty, ASCII and free of CR |
| HttpResponseProperties.ResponseWireFormat | sar/Http/HttpResponce.cs:119-150 | when the content type and the version are ASCII and contain no CR, reading the bytes of a framed response back (section 4 of RFC 1945) gives exactly its header lines and its rendered body. The reader is strict: only CR followed by LF ends a line. A CR LF in either value is written verbatim and would end the line early. A bare LF stays inside its line for this reader, though a lenient reader as in Appendix B of RFC 1945 would break the line there |
| HttpResponseProperties.FailureOnTheWire | sar/Http/HttpResponce.cs:106-127 | after a failure, when the error page renders and its content type and the version are ASCII and contain no CR, the bytes read back start with the line `HTTP/1.0 500 SERVERERROR` and their body is the rendered error page |
| Framing.ParseJoinedLines | sar/Http/HttpResponce.cs:123-149 | CRLF-terminated safe lines, the empty line, then any body parse back to exactly those lines and that body |
| Text.ReplaceAll | sar/Http/HttpResponce.cs:80 | the body is the definition: ordinal `String.Replace`, scanning left to right and replacing non-overlapping occurrences; the lemmas below state what it does |
| Text.ToLower | sar/Http/HttpResponce.cs:63 | the result has the input's length, and each character is that input character lower-cased (ASCII letters only) |
| Text.ReplaceAllAtBoundary | sar/Http/HttpResponce.cs:80 | `Replace` keeps the text before the first occurrence, substitutes that occurrence, and continues after it |
| Text.ReplaceAllKeepsPrefix | sar/Http/HttpResponce.cs:80 | text in which no occurrence starts is copied unchanged |
| Text.ReplaceAllAbsent | sar/Http/HttpResponce.cs:80 | without an occurrence, `Replace` returns its input |
| Text.ParseNatToString | sar/Http/HttpResponce.cs:132 | `int.ToString()` of a length reads back as that length |
| Text.NatToString | sar/Http/HttpResponce.cs:127 | the decimal text is non-empty, all digits, with no leading zero |
| Text.TrimEnd | sar/Http/HttpResponce.cs:65 | drops exactly the last `n` characters and keeps the rest in place |
| Ascii.EncodeChar | sar/Http/HttpResponce.cs:149 | an ASCII character keeps its code; any other character becomes `?` |
| Ascii.DecodeEncode | sar/Http/HttpResponce.cs:149 | encoding ASCII text loses nothing: decoding the bytes gives the text back |
| HttpSession.Allocate | sar/Http/HttpSession.cs:46 | the dictionary is created if missing (also at line 33), and its entries are unchanged |
| HttpSession.Contains | sar/Http/HttpSession.cs:28-38 | true exactly when the ID is a key; the dictionary is created if missing and its contents are unchanged |
| HttpSession.Find | sar/Http/HttpSession.cs:40-61 | on a known ID, returns that session with `LastRequest` set to now and changes nothing else; on an unknown ID, adds exactly one key (the fresh ID) holding a new session with empty data, whose creation date is the constructor's first clock reading and whose `LastRequest` is its second; the key/ID invariant is preserved |
| HttpSession.NewSession | sar/Http/HttpSession.cs:88-96 | a new session has the fresh ID, the first clock reading as its creation date, the second as its `LastRequest`, and empty data, and is added under its ID; before the dictionary exists the `Add` fails, and a duplicate ID makes it throw |
| HttpSession.ExpiryDate | sar/Http/HttpSession.cs:70-72 | exactly two days (`MAX_LIFE`) after `LastRequest`, when that is within `DateTime.MaxValue` |
| HttpSession.InitialValid | sar/Http/HttpSession.cs:25 | the store before any call satisfies the key/ID invariant |
| HttpSession.FindKeepsIdentity | sar/Http/HttpSession.cs:67-68 | `Find` keeps every existing session, with its ID and creation date unchanged |
| HttpSession.FindUnknownGivesOtherId | sar/Http/HttpSession.cs:53-56 | on an unknown ID the returned session has another ID, and the requested ID is still not contained |
| HttpSession.FindMalformedId | sar/Http/HttpSession.cs:90 | an ID not in GUID "D" form is never contained, so `Find` on it always creates a new session |
| HttpSession.FindRefreshes | sar/Http/HttpSession.cs:48-52 | a hit returns the stored session with only `LastRequest` moved to now, stored back under its ID |
| HttpSession.FindSlidesExpiry | sar/Http/HttpSession.cs:51-56 | after `Find`, the returned session expires two days after the clock reading that set its `LastRequest`: now on a hit, the constructor's second reading on a miss |
| HttpSession.ExpiredStillFound | sar/Http/HttpSession.cs:48-52 | nothing evicts sessions: an expired session is still found, and the refresh un-expires it |
| HttpSession.NewSessionBeforeAllocation | sar/Http/HttpSession.cs:95 | the constructor called before the dictionary exists fails on the null dictionary |
| HttpSession.FindCreatesLikeConstructor | sar/Http/HttpSession.cs:53-56 | a miss in `Find` is exactly the constructor registering its session in the created dictionary |
| CommandQueue.Available | sar/FSM/CommandQueue.cs:28 | the body is the definition: true when at least one command is held |
| CommandQueue.AvailableIffDequeueGives | sar/FSM/CommandQueue.cs:28-56 | `Available` holds exactly when `DequeueCommand` would hand back a command |
| CommandQueue.Empty | sar/FSM/CommandQueue.cs:30-33 | a new queue has no command available |
| CommandQueue.Push | sar/FSM/CommandQueue.cs:35-43 | one command is appended at the end, the earlier ones stay as they were, and a command is available |
| CommandQueue.QueueCommand | sar/FSM/CommandQueue.cs:35-38 | appends the command without a parameter |
| CommandQueue.QueueCommandWith | sar/FSM/CommandQueue.cs:40-43 | appends the command with its parameter |
| CommandQueue.DequeueCommand | sar/FSM/CommandQueue.cs:45-56 | on an empty queue, returns nothing and leaves the queue as it is; otherwise returns the last command and removes only that one |
| CommandQueue.QueueThenDequeue | sar/FSM/CommandQueue.cs:37 | queueing a command and dequeueing returns it and restores the previous queue |
| CommandQueue.Reverse | sar/FSM/CommandQueue.cs:45-56 | the order in which LIFO draining returns commands: element `i` is the `i`-th from the end |
| CommandQueue.DrainIsReverse | sar/FSM/CommandQueue.cs:45-56 | dequeueing until empty returns the held commands newest first |
| CommandQueue.LastInFirstOut | sar/FSM/CommandQueue.cs:35-56 | commands queued one by one into a new queue come out in reverse order |
| S7AdapterSim.ReadBytesRaw | sar/S7Siemens/S7Adapter_Sim.cs:27-38 | the result has the requested length; byte `i` is `i % 255`, so no byte is 255, byte `i` is `i` below 255, and the pattern repeats every 255 bytes |

## Left out

- Sockets and streams: `TcpClient`, `NetworkStream` and the write of the response are I/O. The model ends at the byte buffer.
- `Program.Log` calls: logging only.
- The nested PDF HTTP request itself: only the URL handed to `HttpContent.GetPDF` is modelled. The renderer, like the other collaborators, is an abstract function in `Env`.
- `HttpRequest`, `HttpController`, `HttpContent`, `ErrorController`, `AssemblyInfo` and `StringHelper` are not part of this model. `FullUrl` and the server port are plain request fields. `StringHelper.TrimEnd(s, n)` is taken to drop the last `n` characters. `CombineByteArrays` is concatenation.
- `null`. Strings and collaborator results in the model cannot be null, so three paths of the code are left out:
  - a collaborator that returns `null` content: `Env` functions always return a value;
  - a `null` request `Path`: `ToLower()` at `HttpResponce.cs` line 63 throws `NullReferenceException` inside the `try`, so the caller would get the SERVERERROR error page sent as 500;
  - a `null` session ID: `ContainsKey` in `Contains` and `Find` throws `ArgumentNullException`, which nothing in `HttpSession` catches.
- `ToLower` is ASCII lower-casing. Culture-specific case mappings are not modelled.
- `EndsWith(..., StringComparison.CurrentCulture)` is ordinal suffix comparison on the lower-cased path.
- Locks (`sessionLock`, `dataLock`): the session store is modelled sequentially. The `Data` getter, which locks the never-assigned `dataLock`, is left out; session data is a plain map.
- `Guid.NewGuid()` and `DateTime.Now` are arguments. Time is `DateTime` ticks without calendar arithmetic.
- HttpSession.Find: the returned session is a snapshot of the stored one, not a shared handle. In the code, `Find` returns the object held in the dictionary, and `LastRequest` has a public setter. So a caller's handle sees later refreshes, and a write through the handle changes the stored session. Such writes are not modelled: only `Contains`, `Find` and the constructor change the store.
- HttpSession.Find: a generated ID that collides with an existing key (where `Dictionary.Add` would throw) is excluded by a precondition, not modelled as an error. `NewSession` models that error on its own.
- HttpSession.FindUnknownGivesOtherId: holds only when the generated ID differs from the requested one. The code has no such check, so a GUID equal to the unknown requested ID would be returned under that ID.
- The S7 `Adapter` base class and `Address`: only `byteLength` is used, as a natural number. A negative length, which would make `new byte[]` throw, is not representable.

=== FILE: ascii.dfy ===
/** Bytes and the 7-bit ASCII encoding used for HTTP header text
    (`Encoding.ASCII.GetBytes`, which writes '?' for every character
    outside the 7-bit range). */
module Ascii {

  newtype byte = b: int | 0 <= b < 256

  /** The byte written in place of a character ASCII cannot represent. */
  const Replacement: byte := 63

  predicate IsAsciiChar(c: char) {
    (c as int) < 128
  }

  predicate IsAscii(s: string) {
    forall i :: 0 <= i < |s| ==> IsAsciiChar(s[i])
  }

  function EncodeChar(c: char): (b: byte)
    ensures b < 128
    ensures IsAsciiChar(c) <==> b as int == c as int
    ensures !IsAsciiChar(c) ==> b == Replacement
  {
    if IsAsciiChar(c) then (c as int) as byte else Replacement
  }

  /** `Encoding.ASCII.GetBytes`: one byte per character. */
  function Encode(s: string): (r: seq<byte>)
    ensures |r| == |s|
    ensures forall i :: 0 <= i < |s| ==> r[i] == EncodeChar(s[i])
  {
    seq(|s|, i requires 0 <= i < |s| => EncodeChar(s[i]))
  }

  /** Reads bytes back as characters, the inverse of `Encode` on ASCII text. */
  function Decode(b: seq<byte>): (s: string)
    ensures |s| == |b|
    ensures forall i :: 0 <= i < |b| ==> s[i] as int == b[i] as int
  {
    seq(|b|, i requires 0 <= i < |b| => (b[i] as int) as char)
  }

  lemma DecodeEncode(s: string)
    requires IsAscii(s)
    ensures Decode(Encode(s)) == s
  {
    assert forall i :: 0 <= i < |s| ==> Decode(Encode(s))[i] == s[i];
  }

  lemma EncodeConcat(a: string, b: string)
    ensures Encode(a + b) == Encode(a) + Encode(b)
  {
    assert forall i :: 0 <= i < |a + b| ==> Encode(a + b)[i] == (Encode(a) + Encode(b))[i];
  }

  lemma AsciiConcat(a: string, b: string)
    requires IsAscii(a) && IsAscii(b)
    ensures IsAscii(a + b)
  {
    forall i | 0 <= i < |a + b|
      ensures IsAsciiChar((a + b)[i])
    {
      if i < |a| {
        assert (a + b)[i] == a[i];
      } else {
        assert (a + b)[i] == b[i - |a|];
      }
    }
  }

}

=== FILE: command_queue.dfy ===
/** `sar.FSM.CommandQueue`: despite its name, the container hands back the most
    recently queued command first. `E` stands for the command enum, `P` for the
    optional parameter object. */
module CommandQueue {
  import opened Wrappers

  datatype Command<E, P> = Command(command: E, parameter: Option<P>)

  datatype Queue<E, P> = Queue(commands: seq<Command<E, P>>)

  function Empty<E, P>(): (q: Queue<E, P>)
    ensures !Available(q)
  {
    Queue([])
  }

  /** `Available`: at least one command is held. */
  predicate Available<E, P>(q: Queue<E, P>) {
    |q.commands| > 0
  }

  /** Appends one command, leaving the earlier ones as they were. */
  function Push<E, P>(q: Queue<E, P>, c: Command<E, P>): (r: Queue<E, P>)
    ensures |r.commands| == |q.commands| + 1
    ensures r.commands[..|q.commands|] == q.commands
    ensures r.commands[|q.commands|] == c
    ensures Available(r)
  {
    Queue(q.commands + [c])
  }

  /** `QueueCommand(command)`. */
  function QueueCommand<E, P>(q: Queue<E, P>, command: E): (r: Queue<E, P>)
    ensures r.commands == q.commands + [Command(command, None)]
  {
    Push(q, Command(command, None))
  }

  /** `QueueCommand(command, parameter)`. */
  function QueueCommandWith<E, P>(q: Queue<E, P>, command: E, parameter: P): (r: Queue<E, P>)
    ensures r.commands == q.commands + [Command(command, Some(parameter))]
  {
    Push(q, Command(command, Some(parameter)))
  }

  datatype Dequeued<E, P> = Dequeued(command: Option<Command<E, P>>, queue: Queue<E, P>)

  /** `DequeueCommand`: null on an empty queue, otherwise the last command, removed. */
  function DequeueCommand<E, P>(q: Queue<E, P>): (r: Dequeued<E, P>)
    ensures !Available(q) ==> r.command.None? && r.queue == q
    ensures Available(q) ==> && r.command == Some(q.commands[|q.commands| - 1])
                             && r.queue.commands + [r.command.value] == q.commands
  {
    if |q.commands| == 0 then Dequeued(None, q)
    else
      var n := |q.commands|;
      Dequeued(Some(q.commands[n - 1]), Queue(q.commands[..n - 1]))
  }

  /** `Available` tells exactly whether `DequeueCommand` would hand back a command. */
  lemma AvailableIffDequeueGives<E, P>(q: Queue<E, P>)
    ensures Available(q) <==> DequeueCommand(q).command.Some?
  {
  }

  /** Queueing then dequeueing gives the command back and restores the queue. */
  lemma QueueThenDequeue<E, P>(q: Queue<E, P>, c: Command<E, P>)
    ensures DequeueCommand(Push(q, c)) == Dequeued(Some(c), q)
  {
    assert (q.commands + [c])[..|q.commands|] == q.commands;
  }

  /** The sequence back to front: element `i` is the `i`-th from the end. */
  function Reverse<T>(s: seq<T>): (r: seq<T>)
    ensures |r| == |s|
    ensures forall i :: 0 <= i < |s| ==> r[i] == s[|s| - 1 - i]
    decreases |s|
  {
    if |s| == 0 then [] else [s[|s| - 1]] + Reverse(s[..|s| - 1])
  }

  /** Dequeues until the queue reports nothing; the commands in the order returned. */
  function DrainAll<E, P>(q: Queue<E, P>): seq<Command<E, P>>
    decreases |q.commands|
  {
    var d := DequeueCommand(q);
    if d.command.None? then [] else [d.command.value] + DrainAll(d.queue)
  }

  /** LIFO: draining returns the commands newest first. */
  lemma {:induction false} DrainIsReverse<E, P>(q: Queue<E, P>)
    ensures DrainAll(q) == Reverse(q.commands)
    decreases |q.commands|
  {
    if |q.commands| > 0 {
      DrainIsReverse(DequeueCommand(q).queue);
    }
  }

  function QueueAll<E, P>(q: Queue<E, P>, cs: seq<Command<E, P>>): (r: Queue<E, P>)
    ensures r.commands == q.commands + cs
    decreases |cs|
  {
    if |cs| == 0 then q else QueueAll(Push(q, cs[0]), cs[1..])
  }

  /** Commands queued into an empty queue come out in reverse order. */
  lemma LastInFirstOut<E, P>(cs: seq<Command<E, P>>)
    ensures DrainAll(QueueAll(Empty(), cs)) == Reverse(cs)
  {
    assert QueueAll(Empty<E, P>(), cs).commands == cs;
    DrainIsReverse(QueueAll(Empty<E, P>(), cs));
  }

}

=== FILE: framing.dfy ===
/** The message layout of section 4 of RFC 1945 (HTTP/1.0): a head of lines,
    each ended by CRLF, closed by an empty line, then the entity body. The
    writer joins header lines; the reader splits a byte buffer back into
    header lines and body. */
module Framing {
  import opened Wrappers
  import opened Ascii
  import opened Text

  const CR: byte := 13
  const LF: byte := 10
  const Eol: string := "\r\n"

  /** The head as text: every line followed by CRLF, then one more CRLF. */
  function JoinLines(lines: seq<string>): string
    decreases |lines|
  {
    if |lines| == 0 then Eol else lines[0] + Eol + JoinLines(lines[1..])
  }

  /** Text a reader recovers unchanged from the encoded head: ASCII and without CR. */
  predicate SafeText(s: string) {
    IsAscii(s) && '\r' !in s
  }

  /** A line of the head: non-empty safe text. */
  predicate LineSafe(l: string) {
    |l| > 0 && SafeText(l)
  }

  lemma SafeConcat(a: string, b: string)
    requires SafeText(a) && SafeText(b)
    ensures SafeText(a + b)
  {
    AsciiConcat(a, b);
  }

  predicate CrlfAt(b: seq<byte>, j: int) {
    0 <= j && j + 1 < |b| && b[j] == CR && b[j + 1] == LF
  }

  /** The index of the first CRLF pair in `b`. */
  function FindCrlf(b: seq<byte>): (r: Option<nat>)
    ensures r.Some? ==> CrlfAt(b, r.value)
    ensures r.Some? ==> forall j :: 0 <= j < r.value ==> !CrlfAt(b, j)
    ensures r.None? ==> forall j :: !CrlfAt(b, j)
    decreases |b|
  {
    if |b| < 2 then None
    else if b[0] == CR && b[1] == LF then Some(0)
    else
      match FindCrlf(b[1..])
      case None =>
        assert forall j :: CrlfAt(b, j) && j > 0 ==> CrlfAt(b[1..], j - 1);
        None
      case Some(i) =>
        assert forall j :: CrlfAt(b, j) && j > 0 ==> CrlfAt(b[1..], j - 1);
        Some(i + 1)
  }

  datatype Message = Message(lines: seq<string>, body: seq<byte>)

  /** Reads header lines up to the first empty line; the rest is the body.
      `None` when the buffer holds no complete head. */
  function ParseMessage(b: seq<byte>): Option<Message>
    decreases |b|
  {
    match FindCrlf(b)
    case None => None
    case Some(i) =>
      if i == 0 then Some(Message([], b[2..]))
      else
        match ParseMessage(b[i + 2..])
        case None => None
        case Some(m) => Some(Message([Decode(b[..i])] + m.lines, m.body))
  }

  lemma FindCrlfAfterLine(l: string, rest: seq<byte>)
    requires '\r' !in l
    ensures FindCrlf(Encode(l) + [CR, LF] + rest) == Some(|l|)
  {
    var b := Encode(l) + [CR, LF] + rest;
    assert CrlfAt(b, |l|);
    forall j | 0 <= j < |l|
      ensures !CrlfAt(b, j)
    {
      assert b[j] == EncodeChar(l[j]);
      assert l[j] in l;
    }
  }

  lemma EncodeJoin(l: string, rest: seq<string>)
    ensures Encode(JoinLines([l] + rest)) == Encode(l) + [CR, LF] + Encode(JoinLines(rest))
  {
    assert ([l] + rest)[1..] == rest;
    EncodeConcat(l + Eol, JoinLines(rest));
    EncodeConcat(l, Eol);
  }

  /** Round trip: the reader recovers exactly the lines and the body the writer framed. */
  lemma {:induction false} ParseJoinedLines(lines: seq<string>, body: seq<byte>)
    requires AllLinesSafe(lines)
    ensures ParseMessage(Encode(JoinLines(lines)) + body) == Some(Message(lines, body))
    decreases |lines|
  {
    if |lines| == 0 {
      var b := Encode(Eol) + body;
      assert CrlfAt(b, 0);
      assert b[2..] == body;
    } else {
      var l, rest := lines[0], lines[1..];
      assert lines == [l] + rest;
      EncodeJoin(l, rest);
      var b := Encode(l) + [CR, LF] + (Encode(JoinLines(rest)) + body);
      assert Encode(JoinLines(lines)) + body == b;
      FindCrlfAfterLine(l, Encode(JoinLines(rest)) + body);
      assert b[|l| + 2..] == Encode(JoinLines(rest)) + body;
      assert b[..|l|] == Encode(l);
      ParseJoinedLines(rest, body);
      DecodeEncode(l);
    }
  }

  predicate AllLinesSafe(lines: seq<string>) {
    forall i :: 0 <= i < |lines| ==> LineSafe(lines[i])
  }

  /** A header field, written on its own line as `Name: value`. */
  datatype Field = Field(name: string, value: string)

  function FieldLine(f: Field): string {
    f.name + ": " + f.value
  }

  /** A character of a field name: ASCII, neither CR nor the colon that ends the name. */
  predicate NameChar(c: char) {
    IsAsciiChar(c) && c != '\r' && c != ':'
  }

  /** A name a reader can pick out of a line: a non-empty run of name characters. */
  predicate NameSafe(n: string) {
    |n| > 0 && forall i :: 0 <= i < |n| ==> NameChar(n[i])
  }

  lemma NameSafeText(n: string)
    requires NameSafe(n)
    ensures SafeText(n) && ':' !in n
  {
  }

  predicate FieldSafe(f: Field) {
    NameSafe(f.name) && SafeText(f.value)
  }

  lemma FieldLineSafe(f: Field)
    requires FieldSafe(f)
    ensures LineSafe(FieldLine(f))
  {
    NameSafeText(f.name);
    AsciiConcat(f.name, ": ");
    AsciiConcat(f.name + ": ", f.value);
  }

  function FieldLines(fs: seq<Field>): (lines: seq<string>)
    ensures |lines| == |fs|
    ensures forall i :: 0 <= i < |fs| ==> lines[i] == FieldLine(fs[i])
  {
    seq(|fs|, i requires 0 <= i < |fs| => FieldLine(fs[i]))
  }

  /** What a reader makes of the header lines: the value of the first line
      that starts with `name` followed by `: `. */
  function FieldValue(lines: seq<string>, name: string): (r: Option<string>)
    ensures r.Some? <==> exists i :: 0 <= i < |lines| && StartsWith(lines[i], name + ": ")
    decreases |lines|
  {
    if |lines| == 0 then None
    else if StartsWith(lines[0], name + ": ") then Some(lines[0][|name| + 2..])
    else
      var r := FieldValue(lines[1..], name);
      assert forall i :: 1 <= i < |lines| ==> lines[i] == lines[1..][i - 1];
      r
  }

  /** Lines that do not carry the name are passed over. */
  lemma {:induction false} FieldValueSkip(a: seq<string>, b: seq<string>, name: string)
    requires forall i :: 0 <= i < |a| ==> !StartsWith(a[i], name + ": ")
    ensures FieldValue(a + b, name) == FieldValue(b, name)
    decreases |a|
  {
    if |a| > 0 {
      assert (a + b)[0] == a[0];
      assert (a + b)[1..] == a[1..] + b;
      FieldValueSkip(a[1..], b, name);
    } else {
      assert a + b == b;
    }
  }

  /** A field's own line starts with its name and the separator. */
  lemma FieldLineStarts(f: Field)
    ensures StartsWith(FieldLine(f), f.name + ": ")
    ensures FieldLine(f)[|f.name| + 2..] == f.value
  {
    assert FieldLine(f)[..|f.name| + 2] == f.name + ": ";
  }

  /** A field whose name differs from `name` at a position both share is not
      mistaken for it. */
  lemma NamesDiffer(f: Field, name: string, k: nat)
    requires k < |f.name| && k < |name| && f.name[k] != name[k]
    ensures !StartsWith(FieldLine(f), name + ": ")
  {
    assert FieldLine(f)[k] == f.name[k];
    assert (name + ": ")[k] == name[k];
  }

  /** A reader recovers the value of the field at `j` when no earlier field's
      line could be mistaken for it. */
  lemma FieldValueAt(fs: seq<Field>, j: nat)
    requires j < |fs|
    requires forall i :: 0 <= i < j ==> !StartsWith(FieldLine(fs[i]), fs[j].name + ": ")
    ensures FieldValue(FieldLines(fs), fs[j].name) == Some(fs[j].value)
  {
    var lines := FieldLines(fs);
    FieldValueSkip(lines[..j], lines[j..], fs[j].name);
    assert lines == lines[..j] + lines[j..];
    FieldLineStarts(fs[j]);
  }

  /** Two different colon-free names: the line of a field with one never reads
      as carrying the other, whichever name is longer. */
  lemma DistinctNamesDiffer(f: Field, name: string)
    requires f.name != name && ':' !in f.name && ':' !in name
    ensures !StartsWith(FieldLine(f), name + ": ")
  {
    var line, key, n := FieldLine(f), name + ": ", |f.name|;
    if n < |name| {
      assert line[n] == ':';
      assert key[n] == name[n] && name[n] in name;
    } else if n > |name| {
      assert key[|name|] == ':';
      assert line[|name|] == f.name[|name|] && f.name[|name|] in f.name;
    } else {
      var k :| 0 <= k < n && f.name[k] != name[k];
      assert line[k] == f.name[k] && key[k] == name[k];
    }
  }

  /** With colon-free names, no two alike, a reader recovers every field's value. */
  lemma FieldValuesRecovered(fs: seq<Field>)
    requires forall i :: 0 <= i < |fs| ==> ':' !in fs[i].name
    requires forall i, j :: 0 <= i < j < |fs| ==> fs[i].name != fs[j].name
    ensures forall j :: 0 <= j < |fs| ==> FieldValue(FieldLines(fs), fs[j].name) == Some(fs[j].value)
  {
    forall j | 0 <= j < |fs|
      ensures FieldValue(FieldLines(fs), fs[j].name) == Some(fs[j].value)
    {
      forall i | 0 <= i < j
        ensures !StartsWith(FieldLine(fs[i]), fs[j].name + ": ")
      {
        DistinctNamesDiffer(fs[i], fs[j].name);
      }
      FieldValueAt(fs, j);
    }
  }

}

=== FILE: http_response.dfy ===
/** The per-connection response pipeline of `sar.Http.HttpResponse`: the
    constructor strips the PDF-render suffix, picks the content source by a
    first-match rule on the request path, renders the content and frames it as
    an HTTP/1.0 response (`ConstructResponse`). Controllers, the static-file
    reader, the PDF renderer, the error page and the version string are the
    fields of `Env`; exceptions are `Threw` outcomes and failed renders. */
module HttpResponse {
  import opened Wrappers
  import opened Ascii
  import opened Text
  import opened Framing

  /** `HttpStatusCode`; `StatusValue` is the enum's numeric value. */
  datatype HttpStatusCode = OK | FOUND | NOTFOUND | SERVERERROR

  function StatusValue(s: HttpStatusCode): nat {
    match s
    case OK => 200
    case FOUND => 302
    case NOTFOUND => 404
    case SERVERERROR => 500
  }

  /** `Enum.GetName`: the member's identifier, used as the reason phrase. */
  function StatusName(s: HttpStatusCode): string {
    match s
    case OK => "OK"
    case FOUND => "FOUND"
    case NOTFOUND => "NOTFOUND"
    case SERVERERROR => "SERVERERROR"
  }

  const PdfRenderSuffix: string := "-pdf-render"
  const PdfSuffix: string := "-pdf"
  const InfoPath: string := "info"

  /** The parts of `HttpRequest` the pipeline reads. */
  datatype Request = Request(path: string, fullUrl: string, port: nat)

  /** The two exception types the constructor catches separately. */
  datatype FailureKind = FileNotFound | OtherException
  datatype Failure = Failure(kind: FailureKind, message: string)

  /** What `HttpContent.Render()` does: yields the body or throws. */
  datatype Rendering = Rendered(bytes: seq<byte>) | RenderFails(failure: Failure)

  /** `HttpContent`; `isErrorContent` is `content is HttpErrorContent`. */
  datatype Content = Content(contentType: string, isErrorContent: bool, render: Rendering)

  /** A content source either returns content or throws. */
  datatype Outcome = Produced(content: Content) | Threw(failure: Failure)

  /** What `HttpController.ActionExists` does: answers, or throws. */
  datatype ActionCheck = Answers(found: bool) | CheckThrows(failure: Failure)

  /** The collaborators the constructor calls. */
  datatype Env = Env(
    primaryDefined: bool,                                  // HttpController.Primary != null
    primaryActionDefined: bool,                            // HttpController.Primary.PrimaryAction != null
    requestPrimary: Request -> Outcome,                    // HttpController.RequestPrimary
    actionExists: Request -> ActionCheck,                  // HttpController.ActionExists
    requestAction: Request -> Outcome,                     // HttpController.RequestAction(request)
    requestNamedAction: (string, string, Request) -> Outcome, // HttpController.RequestAction(controller, action, request)
    read: (Request, string) -> Outcome,                    // HttpContent.Read(server, path)
    getPdf: string -> Outcome,                             // HttpContent.GetPDF(url)
    display: (Request, Failure, HttpStatusCode) -> Content, // ErrorController.Display
    sarVersion: string)                                    // AssemblyInfo.SarVersion

  // ---------------------------------------------------------------------------
  // Suffix strip

  datatype Stripped = Stripped(path: string, pdfRender: bool)

  /** Removes one trailing `-pdf-render` (compared case-insensitively) and records it. */
  function StripPdfRender(path: string): (r: Stripped)
    ensures r.pdfRender <==> EndsWith(ToLower(path), PdfRenderSuffix)
    ensures r.pdfRender ==> |r.path| + |PdfRenderSuffix| == |path| && r.path + path[|r.path|..] == path
    ensures !r.pdfRender ==> r.path == path
  {
    if EndsWith(ToLower(path), PdfRenderSuffix) then
      Stripped(TrimEnd(path, |PdfRenderSuffix|), true)
    else
      Stripped(path, false)
  }

  /** The request as the content sources see it, and as the caller's request
      object is left: its path after the strip. */
  function Working(request: Request): (r: Request)
    ensures r.path == StripPdfRender(request.path).path
    ensures r.fullUrl == request.fullUrl && r.port == request.port
  {
    request.(path := StripPdfRender(request.path).path)
  }

  // ---------------------------------------------------------------------------
  // Content source selection

  /** The content source picked; `ActionCheckThrew` is an exception out of the
      `ActionExists` test itself, before any source is called. */
  datatype Branch = PrimaryBranch | PdfBranch(url: string) | InfoBranch | ActionBranch
                  | ActionCheckThrew(failure: Failure) | StaticBranch(path: string)

  /** The five rules, by the condition that selects each. */
  datatype Rule = EmptyPath | PdfPath | InfoName | RegisteredAction | StaticFile

  /** Position of each rule in the order the constructor tests them. */
  function Rank(k: Rule): nat {
    match k
    case EmptyPath => 0
    case PdfPath => 1
    case InfoName => 2
    case RegisteredAction => 3
    case StaticFile => 4
  }

  /** The condition of each rule on its own, ignoring the rules before it. The
      action test decides the branch unless it answers no. */
  predicate Guard(k: Rule, req: Request, env: Env) {
    match k
    case EmptyPath => req.path == ""
    case PdfPath => EndsWith(ToLower(req.path), PdfSuffix)
    case InfoName => ToLower(req.path) == InfoPath
    case RegisteredAction => env.actionExists(req) != Answers(false)
    case StaticFile => true
  }

  function RuleOf(b: Branch): Rule {
    match b
    case PrimaryBranch => EmptyPath
    case PdfBranch(_) => PdfPath
    case InfoBranch => InfoName
    case ActionBranch => RegisteredAction
    case ActionCheckThrew(_) => RegisteredAction
    case StaticBranch(_) => StaticFile
  }

  /** The URL of the nested PDF request: `http://localhost:<port><FullUrl>-pdf-render`
      with every occurrence of the path replaced by the path minus its last four characters. */
  function PdfUrl(req: Request): string
    requires EndsWith(ToLower(req.path), PdfSuffix)
  {
    ReplaceAll("http://localhost:" + NatToString(req.port) + req.fullUrl + PdfRenderSuffix,
               req.path, TrimEnd(req.path, |PdfSuffix|))
  }

  /** First match: the chosen rule's condition holds and every earlier one fails. */
  function SelectBranch(req: Request, env: Env): (b: Branch)
    ensures Guard(RuleOf(b), req, env)
    ensures forall k :: Rank(k) < Rank(RuleOf(b)) ==> !Guard(k, req, env)
    ensures b.PdfBranch? ==> EndsWith(ToLower(req.path), PdfSuffix) && b.url == PdfUrl(req)
    ensures b.ActionBranch? ==> env.actionExists(req) == Answers(true)
    ensures b.ActionCheckThrew? ==> env.actionExists(req) == CheckThrows(b.failure)
    ensures b.StaticBranch? ==> b.path == req.path
  {
    if req.path == "" then PrimaryBranch
    else if EndsWith(ToLower(req.path), PdfSuffix) then PdfBranch(PdfUrl(req))
    else if ToLower(req.path) == InfoPath then InfoBranch
    else
      match env.actionExists(req)
      case CheckThrows(f) => ActionCheckThrew(f)
      case Answers(found) => if found then ActionBranch else StaticBranch(req.path)
  }

  /** Calls the content source of the branch; the empty path needs a primary
      controller and a primary action. */
  function Resolve(b: Branch, req: Request, env: Env): Outcome {
    match b
    case PrimaryBranch =>
      if !env.primaryDefined then Threw(Failure(OtherException, "Primary Controller Not Defined"))
      else if !env.primaryActionDefined then Threw(Failure(OtherException, "Primary Action Not Defined"))
      else env.requestPrimary(req)
    case PdfBranch(url) => env.getPdf(url)
    case InfoBranch => env.requestNamedAction("Debug", "Info", req)
    case ActionBranch => env.requestAction(req)
    case ActionCheckThrew(f) => Threw(f)
    case StaticBranch(p) => env.read(req, p)
  }

  // ---------------------------------------------------------------------------
  // Response framing

  function StatusLine(status: HttpStatusCode): string {
    "HTTP/1.0" + " " + NatToString(StatusValue(status)) + " " + StatusName(status)
  }

  /** The header fields after the status line, in the order they are written;
      the `X-Content-Type-Options` field only in PDF-render mode. */
  function HeaderFields(contentType: string, contentLength: nat, version: string,
                        pdfRender: bool): seq<Field>
  {
    [ Field("Content-Type", contentType),
      Field("Content-Length", NatToString(contentLength)),
      Field("Server", "sar\\" + version),
      Field("Access-Control-Allow-Origin", "*"),
      Field("Access-Control-Allow-Methods", "POST, GET"),
      Field("Access-Control-Max-Age", "1728000"),
      Field("Access-Control-Allow-Credentials", "true") ]
    + (if pdfRender then [Field("X-Content-Type-Options", "pdf-render")] else [])
    + [ Field("Connection", "close") ]
  }

  /** The head of the response, line by line. */
  function HeaderLines(status: HttpStatusCode, contentType: string, contentLength: nat,
                       version: string, pdfRender: bool): seq<string>
  {
    [StatusLine(status)] + FieldLines(HeaderFields(contentType, contentLength, version, pdfRender))
  }

  /** `ConstructResponse`: the ASCII head followed by exactly the rendered body. */
  function ConstructResponse(status: HttpStatusCode, contentType: string, body: seq<byte>,
                             pdfRender: bool, version: string): (r: seq<byte>)
    ensures |r| > |body| && r[|r| - |body|..] == body
  {
    Encode(JoinLines(HeaderLines(status, contentType, |body|, version, pdfRender))) + body
  }

  datatype Response = Response(status: HttpStatusCode, content: Content, pdfRender: bool, bytes: seq<byte>)

  /** The constructor either leaves a response behind or lets an exception out;
      either way the caller's request object keeps the path the strip wrote into it. */
  datatype Construction = Built(response: Response, request: Request)
                        | Escaped(failure: Failure, request: Request)

  /** A response whose bytes are the framing of its own rendered content and status. */
  predicate Framed(resp: Response, version: string) {
    && resp.content.render.Rendered?
    && resp.bytes == ConstructResponse(resp.status, resp.content.contentType,
                                       resp.content.render.bytes, resp.pdfRender, version)
  }

  // ---------------------------------------------------------------------------
  // The constructor

  /** The `try` block once content is at hand: 500 for error content, else 200;
      rendering may throw. */
  datatype Attempt = Answered(response: Response) | Failed(failure: Failure)

  function Answer(content: Content, pdfRender: bool, env: Env): (a: Attempt)
    ensures a.Answered? <==> content.render.Rendered?
    ensures a.Answered? ==> a.response.content == content && a.response.pdfRender == pdfRender
    ensures a.Answered? ==> (a.response.status == OK <==> !content.isErrorContent)
    ensures a.Answered? ==> a.response.status in {OK, SERVERERROR} && Framed(a.response, env.sarVersion)
    ensures a.Failed? ==> a.failure == content.render.failure
  {
    var status := if content.isErrorContent then SERVERERROR else OK;
    match content.render
    case RenderFails(f) => Failed(f)
    case Rendered(body) =>
      Answered(Response(status, content, pdfRender,
                        ConstructResponse(status, content.contentType, body, pdfRender, env.sarVersion)))
  }

  /** The whole `try` block on the stripped request. */
  function Attempted(request: Request, env: Env): Attempt {
    var pdfRender := StripPdfRender(request.path).pdfRender;
    var req := Working(request);
    match Resolve(SelectBranch(req, env), req, env)
    case Threw(f) => Failed(f)
    case Produced(c) => Answer(c, pdfRender, env)
  }

  /** The status the error page is told about: NOTFOUND for a missing file. */
  function IntendedStatus(f: Failure): (r: HttpStatusCode)
    ensures r == NOTFOUND <==> f.kind == FileNotFound
    ensures r in {NOTFOUND, SERVERERROR}
  {
    if f.kind == FileNotFound then NOTFOUND else SERVERERROR
  }

  /** The `catch` blocks: the error page, always sent as 500. If the error page
      itself fails to render, the exception leaves the constructor. */
  function Recover(req: Request, f: Failure, pdfRender: bool, env: Env): (r: Construction)
    ensures r.Built? <==> env.display(req, f, IntendedStatus(f)).render.Rendered?
    ensures r.request == req
    ensures r.Built? ==> && r.response.status == SERVERERROR
                         && r.response.content == env.display(req, f, IntendedStatus(f))
                         && r.response.pdfRender == pdfRender
                         && Framed(r.response, env.sarVersion)
  {
    var content := env.display(req, f, IntendedStatus(f));
    match content.render
    case RenderFails(g) => Escaped(g, req)
    case Rendered(body) =>
      Built(Response(SERVERERROR, content, pdfRender,
                     ConstructResponse(SERVERERROR, content.contentType, body, pdfRender, env.sarVersion)),
            req)
  }

  /** The `HttpResponse` constructor, from request to bytes. */
  function Respond(request: Request, env: Env): (r: Construction)
    ensures r.request.path == StripPdfRender(request.path).path
    ensures r.request.fullUrl == request.fullUrl && r.request.port == request.port
    ensures r.Built? ==> r.response.pdfRender == EndsWith(ToLower(request.path), PdfRenderSuffix)
    ensures r.Built? ==> r.response.status in {OK, SERVERERROR} && Framed(r.response, env.sarVersion)
    ensures r.Built? && r.response.status == OK ==> !r.response.content.isErrorContent
    ensures r.Escaped? ==> Attempted(request, env).Failed?
    ensures Attempted(request, env).Answered? ==> r.Built? && r.response == Attempted(request, env).response
  {
    match Attempted(request, env)
    case Answered(resp) => Built(resp, Working(request))
    case Failed(f) => Recover(Working(request), f, StripPdfRender(request.path).pdfRender, env)
  }

}

/** Properties of the pipeline in `HttpResponse`. */
module HttpResponseProperties {
  import opened Wrappers
  import opened Ascii
  import opened Text
  import opened Framing
  import opened HttpResponse

  lemma LowerOfConcat(p: string, s: string)
    ensures ToLower(p + s) == ToLower(p) + ToLower(s)
  {
    assert forall i :: 0 <= i < |p + s| ==> ToLower(p + s)[i] == (ToLower(p) + ToLower(s))[i];
  }

  /** A path ending in the suffix, in any letter case, loses exactly that suffix. */
  lemma StripRemovesOneSuffix(p: string, s: string)
    requires ToLower(s) == PdfRenderSuffix
    ensures StripPdfRender(p + s) == Stripped(p, true)
  {
    LowerOfConcat(p, s);
    assert ToLower(p + s)[|p|..] == ToLower(s);
    assert (p + s)[..|p|] == p;
  }

  /** The strip happens once: a doubled suffix leaves one behind. */
  lemma StripAppliedOnce(p: string)
    ensures StripPdfRender(p + PdfRenderSuffix + PdfRenderSuffix) == Stripped(p + PdfRenderSuffix, true)
    ensures EndsWith(ToLower(StripPdfRender(p + PdfRenderSuffix + PdfRenderSuffix).path), PdfRenderSuffix)
  {
    assert ToLower(PdfRenderSuffix) == PdfRenderSuffix;
    StripRemovesOneSuffix(p + PdfRenderSuffix, PdfRenderSuffix);
    LowerOfConcat(p, PdfRenderSuffix);
  }

  /** Status 200 exactly when the selected source produced non-error content
      that rendered; everything else is 500 or an escaped exception. */
  lemma StatusOkIff(request: Request, env: Env)
    ensures var r := Respond(request, env);
            var req := Working(request);
            var o := Resolve(SelectBranch(req, env), req, env);
            (r.Built? && r.response.status == OK)
            <==> (o.Produced? && !o.content.isErrorContent && o.content.render.Rendered?)
  {
  }

  /** Any failure while resolving or rendering is answered by the error page with
      status 500; the intended status only reaches the error page. */
  lemma FailureAnsweredBy500(request: Request, env: Env)
    requires Attempted(request, env).Failed?
    ensures var f := Attempted(request, env).failure;
            var page := env.display(Working(request), f, IntendedStatus(f));
            var r := Respond(request, env);
            && (r.Built? <==> page.render.Rendered?)
            && (r.Built? ==> r.response.status == SERVERERROR && r.response.content == page)
            && (r.Escaped? ==> r.failure == page.render.failure)
  {
  }

  /** The empty path without a primary controller or action fails with a
      configuration error and is answered by the error page with status 500. */
  lemma EmptyPathWithoutPrimary(request: Request, env: Env)
    requires request.path == ""
    requires !env.primaryDefined || !env.primaryActionDefined
    ensures var f := Failure(OtherException,
                             if !env.primaryDefined then "Primary Controller Not Defined"
                             else "Primary Action Not Defined");
            && Attempted(request, env) == Failed(f)
            && var r := Respond(request, env);
               r.Built? ==> r.response.status == SERVERERROR
                            && r.response.content == env.display(request, f, SERVERERROR)
  {
    assert Working(request) == request;
  }

  /** A missing static file tells the error page NOTFOUND, but the status sent is 500. */
  lemma MissingFileSentAs500(request: Request, env: Env, message: string)
    requires SelectBranch(Working(request), env).StaticBranch?
    requires env.read(Working(request), Working(request).path) == Threw(Failure(FileNotFound, message))
    ensures var page := env.display(Working(request), Failure(FileNotFound, message), NOTFOUND);
            var r := Respond(request, env);
            r.Built? ==> r.response.status == SERVERERROR && r.response.content == page
  {
  }

  /** An exception out of the `ActionExists` test is caught like one from a
      content source: the error page, sent as 500. */
  lemma ActionCheckFailureSentAs500(request: Request, env: Env, f: Failure)
    requires Working(request).path != ""
    requires !EndsWith(ToLower(Working(request).path), PdfSuffix)
    requires ToLower(Working(request).path) != InfoPath
    requires env.actionExists(Working(request)) == CheckThrows(f)
    ensures Attempted(request, env) == Failed(f)
    ensures var page := env.display(Working(request), f, IntendedStatus(f));
            var r := Respond(request, env);
            && (r.Built? <==> page.render.Rendered?)
            && (r.Built? ==> r.response.status == SERVERERROR && r.response.content == page)
  {
  }

  /** `info` reaches the debug action in any letter case. */
  lemma InfoInAnyCase(request: Request, env: Env)
    requires ToLower(request.path) == InfoPath
    ensures Working(request) == request
    ensures SelectBranch(request, env) == InfoBranch
  {
    assert !EndsWith(ToLower(request.path), PdfSuffix) by {
      assert ToLower(request.path)[0] == 'i';
    }
  }

  /** The dashes of `-pdf-render` sit at positions 0 and 4. */
  lemma DashesOfRenderSuffix(j: int)
    requires 0 <= j < |PdfRenderSuffix| && PdfRenderSuffix[j] == '-'
    ensures j == 0 || j == 4
  {
  }

  /** The only path ending in `-pdf` that occurs inside `-pdf-render` is `-pdf` itself. */
  lemma OccurrenceInRenderSuffix(path: string, i: int)
    requires EndsWith(ToLower(path), PdfSuffix)
    ensures OccursAt(PdfRenderSuffix, path, i) ==> path == PdfSuffix
  {
    var n := |path|;
    assert ToLower(path)[n - 4] == '-' && ToLower(path)[n - 3] == 'p' by {
      assert ToLower(path)[n - 4..] == PdfSuffix;
    }
    if OccursAt(PdfRenderSuffix, path, i) {
      assert PdfRenderSuffix[i..i + n] == path;
      var j := i + n - 4;
      assert PdfRenderSuffix[j] == path[n - 4] == '-';
      DashesOfRenderSuffix(j);
      assert PdfRenderSuffix[j + 1] == path[n - 3];
      assert j == 0;
      assert path == PdfRenderSuffix[..4];
    }
  }

  lemma PathAbsentFromRenderSuffix(path: string)
    requires EndsWith(ToLower(path), PdfSuffix) && path != PdfSuffix
    ensures forall i :: !OccursAt(PdfRenderSuffix, path, i)
  {
    forall i
      ensures !OccursAt(PdfRenderSuffix, path, i)
    {
      OccurrenceInRenderSuffix(path, i);
    }
  }

  /** In the usual case - the path ends the full URL and occurs nowhere before
      that - the nested URL is the full URL with its `-pdf` ending replaced by
      `-pdf-render`. */
  lemma PdfUrlOfTypicalRequest(req: Request, base: string)
    requires EndsWith(ToLower(req.path), PdfSuffix) && req.path != PdfSuffix
    requires req.fullUrl == base + req.path
    requires var prefix := "http://localhost:" + NatToString(req.port) + base;
             NoneBefore(prefix + req.path + PdfRenderSuffix, req.path, |prefix|)
    ensures PdfUrl(req) == "http://localhost:" + NatToString(req.port) + TrimEnd(req.fullUrl, |PdfSuffix|) + PdfRenderSuffix
  {
    var host := "http://localhost:" + NatToString(req.port);
    var rep := TrimEnd(req.path, |PdfSuffix|);
    calc {
      PdfUrl(req);
      ReplaceAll(host + req.fullUrl + PdfRenderSuffix, req.path, rep);
      { assert host + req.fullUrl + PdfRenderSuffix == (host + base) + req.path + PdfRenderSuffix; }
      ReplaceAll((host + base) + req.path + PdfRenderSuffix, req.path, rep);
      { ReplaceAllAtBoundary(host + base, req.path, PdfRenderSuffix, rep); }
      (host + base) + rep + ReplaceAll(PdfRenderSuffix, req.path, rep);
      { RenderSuffixKept(req.path, rep); }
      (host + base) + rep + PdfRenderSuffix;
      { TrimAfterBase(base, req.path); }
      host + TrimEnd(req.fullUrl, |PdfSuffix|) + PdfRenderSuffix;
    }
  }

  lemma RenderSuffixKept(path: string, rep: string)
    requires EndsWith(ToLower(path), PdfSuffix) && path != PdfSuffix
    ensures ReplaceAll(PdfRenderSuffix, path, rep) == PdfRenderSuffix
  {
    PathAbsentFromRenderSuffix(path);
    ReplaceAllAbsent(PdfRenderSuffix, path, rep);
  }

  lemma TrimAfterBase(base: string, path: string)
    requires |path| >= |PdfSuffix|
    ensures TrimEnd(base + path, |PdfSuffix|) == base + TrimEnd(path, |PdfSuffix|)
  {
  }

  /** On the success path the response carries exactly the content the selected
      source produced, framed with its own rendered bytes. */
  lemma SuccessCarriesSelectedContent(request: Request, env: Env)
    ensures var req := Working(request);
            var o := Resolve(SelectBranch(req, env), req, env);
            o.Produced? && o.content.render.Rendered? ==>
              var r := Respond(request, env);
              && r.Built?
              && r.response.content == o.content
              && r.response.bytes == ConstructResponse(r.response.status, o.content.contentType,
                                                       o.content.render.bytes, r.response.pdfRender,
                                                       env.sarVersion)
  {
  }

  /** End to end: `report-pdf` on port 8080 is answered with whatever the PDF renderer
      returns for `report-pdf-render`, with status 200 for non-error content that
      renders, and without the PDF-render mark. */
  lemma PdfRequestAnswered(env: Env)
    ensures var request := Request("report-pdf", "/report-pdf", 8080);
            var pdf := env.getPdf("http://localhost:8080/report-pdf-render");
            pdf.Produced? && !pdf.content.isErrorContent && pdf.content.render.Rendered? ==>
              var r := Respond(request, env);
              && r.Built? && r.response.status == OK && r.response.content == pdf.content
              && !r.response.pdfRender
              && r.response.bytes == ConstructResponse(OK, pdf.content.contentType,
                                                       pdf.content.render.bytes, false, env.sarVersion)
  {
    PdfRequestExample(env);
  }

  /** `report-pdf` on port 8080 asks the PDF renderer for `report-pdf-render`. */
  lemma PdfRequestExample(env: Env)
    ensures var request := Request("report-pdf", "/report-pdf", 8080);
            && Working(request) == request
            && SelectBranch(request, env) == PdfBranch("http://localhost:8080/report-pdf-render")
  {
    ReportPdfPath();
    ReportPdfUrl();
  }

  lemma ReportPdfPath()
    ensures !EndsWith(ToLower("report-pdf"), PdfRenderSuffix)
    ensures EndsWith(ToLower("report-pdf"), PdfSuffix)
  {
    assert ToLower("report-pdf")[6..] == PdfSuffix;
  }

  lemma ReportPdfUrl()
    ensures EndsWith(ToLower("report-pdf"), PdfSuffix)
    ensures PdfUrl(Request("report-pdf", "/report-pdf", 8080)) == "http://localhost:8080/report-pdf-render"
  {
    ReportPdfPath();
    ReportPdfFirstOccurrence();
    PdfUrlOfTypicalRequest(Request("report-pdf", "/report-pdf", 8080), "/");
    ReportPdfResult();
  }

  lemma ReportPdfFirstOccurrence()
    ensures var prefix := "http://localhost:" + NatToString(8080) + "/";
            NoneBefore(prefix + "report-pdf" + PdfRenderSuffix, "report-pdf", |prefix|)
  {
    Port8080();
    var prefix := "http://localhost:8080/";
    assert "http://localhost:" + NatToString(8080) + "/" == prefix;
    FirstOccurrenceAfter(prefix, "report-pdf", PdfRenderSuffix);
  }

  lemma ReportPdfResult()
    ensures "http://localhost:" + NatToString(8080) + TrimEnd("/report-pdf", |PdfSuffix|) + PdfRenderSuffix
            == "http://localhost:8080/report-pdf-render"
  {
    calc {
      "http://localhost:" + NatToString(8080) + TrimEnd("/report-pdf", |PdfSuffix|) + PdfRenderSuffix;
      { Port8080(); ReportTrim(); }
      "http://localhost:" + "8080" + "/report" + PdfRenderSuffix;
      "http://localhost:8080/report-pdf-render";
    }
  }

  lemma ReportTrim()
    ensures TrimEnd("/report-pdf", |PdfSuffix|) == "/report"
  {
  }

  lemma Port8080()
    ensures NatToString(8080) == "8080"
  {
    assert NatToString(8) == "8";
    assert NatToString(80) == "80";
    assert NatToString(808) == "808";
  }

  /** A path whose first character is absent from `prefix` first occurs right after it. */
  lemma FirstOccurrenceAfter(prefix: string, path: string, rest: string)
    requires |path| > 0 && path[0] !in prefix
    ensures NoneBefore(prefix + path + rest, path, |prefix|)
  {
    forall i | 0 <= i < |prefix|
      ensures !OccursAt(prefix + path + rest, path, i)
    {
      assert (prefix + path + rest)[i] == prefix[i];
    }
  }

  /** Every occurrence of the path is replaced: the bare path `-pdf` loses the
      `-pdf` of the suffix too, and the nested URL ends in `-render`. */
  lemma PdfUrlOfBarePdfPath()
    ensures EndsWith(ToLower("-pdf"), PdfSuffix)
    ensures PdfUrl(Request("-pdf", "/-pdf", 80)) == "http://localhost:80/-render"
  {
    var host := "http://localhost:80/";
    var s := host + PdfSuffix + PdfRenderSuffix;
    BarePdfPath();
    calc {
      PdfUrl(Request("-pdf", "/-pdf", 80));
      ReplaceAll("http://localhost:" + NatToString(80) + "/-pdf" + PdfRenderSuffix, "-pdf", TrimEnd("-pdf", |PdfSuffix|));
      { BarePdfUrlText(); }
      ReplaceAll(s, PdfSuffix, "");
      { FirstOccurrenceAfter(host, PdfSuffix, PdfRenderSuffix);
        ReplaceAllAtBoundary(host, PdfSuffix, PdfRenderSuffix, ""); }
      host + "" + ReplaceAll(PdfRenderSuffix, PdfSuffix, "");
      { RenderSuffixWithoutPdf(); }
      host + "" + "-render";
    }
  }

  lemma BarePdfPath()
    ensures EndsWith(ToLower("-pdf"), PdfSuffix)
    ensures TrimEnd("-pdf", |PdfSuffix|) == ""
  {
  }

  lemma BarePdfUrlText()
    ensures "http://localhost:" + NatToString(80) + "/-pdf" + PdfRenderSuffix
            == "http://localhost:80/" + PdfSuffix + PdfRenderSuffix
  {
    assert NatToString(80) == "80" by {
      assert NatToString(8) == "8";
    }
  }

  lemma RenderSuffixWithoutPdf()
    ensures ReplaceAll(PdfRenderSuffix, PdfSuffix, "") == "-render"
  {
    assert PdfRenderSuffix == "" + PdfSuffix + "-render";
    ReplaceAllAtBoundary("", PdfSuffix, "-render", "");
    forall i
      ensures !OccursAt("-render", PdfSuffix, i)
    {
      if 0 <= i && i + 4 <= 7 {
        assert "-render"[i..i + 4][0] != '-' || "-render"[i..i + 4][1] != 'p';
      }
    }
    ReplaceAllAbsent("-render", PdfSuffix, "");
  }

  /** The nested request's path, `<path minus -pdf>-pdf-render`, is stripped back
      to the path minus `-pdf` with the PDF-render flag set. */
  lemma NestedRequestStrip(path: string)
    requires EndsWith(ToLower(path), PdfSuffix)
    ensures StripPdfRender(TrimEnd(path, |PdfSuffix|) + PdfRenderSuffix)
            == Stripped(TrimEnd(path, |PdfSuffix|), true)
  {
    assert ToLower(PdfRenderSuffix) == PdfRenderSuffix;
    StripRemovesOneSuffix(TrimEnd(path, |PdfSuffix|), PdfRenderSuffix);
  }

  /** The nested request need not be the last hop: `a-pdf-pdf` is stripped to
      `a-pdf`, which selects the PDF branch again. */
  lemma NestedRequestCanHopAgain(env: Env)
    ensures var nested := Request("a-pdf-pdf-render", "/a-pdf-pdf-render", 80);
            SelectBranch(Working(nested), env).PdfBranch?
  {
    var nested := Request("a-pdf-pdf-render", "/a-pdf-pdf-render", 80);
    HopPath();
    StripRemovesOneSuffix("a-pdf", PdfRenderSuffix);
    assert Working(nested).path == "a-pdf";
  }

  lemma HopPath()
    ensures "a-pdf-pdf-render" == "a-pdf" + PdfRenderSuffix
    ensures ToLower(PdfRenderSuffix) == PdfRenderSuffix
    ensures EndsWith(ToLower("a-pdf"), PdfSuffix)
  {
    assert ToLower("a-pdf")[1..] == PdfSuffix;
  }

  /** A failure is announced as `HTTP/1.0 500 SERVERERROR`, success as `HTTP/1.0 200 OK`. */
  lemma StatusLines()
    ensures StatusLine(SERVERERROR) == "HTTP/1.0 500 SERVERERROR"
    ensures StatusLine(OK) == "HTTP/1.0 200 OK"
  {
    StatusCodeText();
    assert "HTTP/1.0" + " " + "500" + " " + "SERVERERROR" == "HTTP/1.0 500 SERVERERROR";
    assert "HTTP/1.0" + " " + "200" + " " + "OK" == "HTTP/1.0 200 OK";
  }

  lemma StatusCodeText()
    ensures NatToString(500) == "500" && NatToString(200) == "200"
  {
    assert NatToString(5) == "5" && NatToString(50) == "50";
    assert NatToString(2) == "2" && NatToString(20) == "20";
  }

  /** The field names of the head after the status line, in the order written. */
  function FieldNames(pdfRender: bool): seq<string> {
    ["Content-Type", "Content-Length", "Server", "Access-Control-Allow-Origin",
     "Access-Control-Allow-Methods", "Access-Control-Max-Age", "Access-Control-Allow-Credentials"]
    + (if pdfRender then ["X-Content-Type-Options"] else [])
    + ["Connection"]
  }

  /** One status line, then one `Name: value` line per field name, in order;
      the connection line is last. */
  lemma HeaderFieldOrder(status: HttpStatusCode, contentType: string, contentLength: nat,
                         version: string, pdfRender: bool)
    ensures var lines := HeaderLines(status, contentType, contentLength, version, pdfRender);
            && lines[0] == StatusLine(status)
            && |lines| == |FieldNames(pdfRender)| + 1
            && (forall i :: 0 <= i < |FieldNames(pdfRender)| ==>
                  StartsWith(lines[i + 1], FieldNames(pdfRender)[i] + ": "))
            && lines[|lines| - 1] == FieldLine(Field("Connection", "close"))
  {
    var fs := HeaderFields(contentType, contentLength, version, pdfRender);
    var lines := HeaderLines(status, contentType, contentLength, version, pdfRender);
    HeaderFieldNames(contentType, contentLength, version, pdfRender);
    forall i | 0 <= i < |FieldNames(pdfRender)|
      ensures StartsWith(lines[i + 1], FieldNames(pdfRender)[i] + ": ")
    {
      assert lines[i + 1] == FieldLine(fs[i]);
      FieldLineStarts(fs[i]);
    }
  }

  lemma HeaderFieldNames(contentType: string, contentLength: nat, version: string, pdfRender: bool)
    ensures var fs := HeaderFields(contentType, contentLength, version, pdfRender);
            && |fs| == |FieldNames(pdfRender)|
            && (forall i :: 0 <= i < |fs| ==> fs[i].name == FieldNames(pdfRender)[i])
            && fs[|fs| - 1] == Field("Connection", "close")
  {
  }

  /** `Content-Length` carries the body length, read back as a number. */
  lemma ContentLengthField(status: HttpStatusCode, contentType: string, contentLength: nat,
                           version: string, pdfRender: bool)
    ensures var fields := HeaderLines(status, contentType, contentLength, version, pdfRender)[1..];
            && FieldValue(fields, "Content-Length") == Some(NatToString(contentLength))
            && ParseNat(FieldValue(fields, "Content-Length").value) == contentLength
  {
    HeaderFieldRead(status, contentType, contentLength, version, pdfRender, 1,
                    Field("Content-Length", NatToString(contentLength)));
    ParseNatToString(contentLength);
  }

  /** The `X-Content-Type-Options: pdf-render` field is present exactly in PDF-render mode. */
  lemma PdfRenderFieldIff(status: HttpStatusCode, contentType: string, contentLength: nat,
                          version: string, pdfRender: bool)
    ensures var fields := HeaderLines(status, contentType, contentLength, version, pdfRender)[1..];
            FieldValue(fields, "X-Content-Type-Options")
            == if pdfRender then Some("pdf-render") else None
  {
    var name := "X-Content-Type-Options";
    var fs := HeaderFields(contentType, contentLength, version, pdfRender);
    assert HeaderLines(status, contentType, contentLength, version, pdfRender)[1..] == FieldLines(fs);
    var n := if pdfRender then 7 else |fs|;
    forall i | 0 <= i < n
      ensures !StartsWith(FieldLine(fs[i]), name + ": ")
    {
      assert fs[i].name[0] in "CSA";
      NamesDiffer(fs[i], name, 0);
    }
    if pdfRender {
      FieldValueAt(fs, 7);
    } else {
      forall i | 0 <= i < |fs|
        ensures !StartsWith(FieldLines(fs)[i], name + ": ")
      {
      }
    }
  }

  lemma StatusLineSafe(status: HttpStatusCode)
    ensures LineSafe(StatusLine(status))
  {
    var digits := NatToString(StatusValue(status));
    DigitsSafe(digits);
    StatusNameSafe(status);
    StatusWordsSafe();
    SafeConcat("HTTP/1.0", " ");
    SafeConcat("HTTP/1.0" + " ", digits);
    SafeConcat("HTTP/1.0" + " " + digits, " ");
    SafeConcat("HTTP/1.0" + " " + digits + " ", StatusName(status));
  }

  lemma StatusWordsSafe()
    ensures SafeText("HTTP/1.0") && SafeText(" ")
  {
  }

  lemma StatusNameSafe(status: HttpStatusCode)
    ensures SafeText(StatusName(status))
  {
  }

  lemma DigitsSafe(d: string)
    requires IsDigits(d)
    ensures SafeText(d)
  {
  }

  /** The header names are well-formed and no two alike, so a reader can tell
      every field apart. */
  lemma FieldNamesWellFormed(pdfRender: bool)
    ensures var names := FieldNames(pdfRender);
            && (forall i :: 0 <= i < |names| ==> NameSafe(names[i]))
            && (forall i, j :: 0 <= i < j < |names| ==> names[i] != names[j])
  {
    OtherNamesSafe();
    CorsNamesSafe();
    assert "Access-Control-Max-Age"[0] != "X-Content-Type-Options"[0];
  }

  lemma OtherNamesSafe()
    ensures NameSafe("Content-Type") && NameSafe("Content-Length") && NameSafe("Server")
    ensures NameSafe("X-Content-Type-Options") && NameSafe("Connection")
  {
  }

  lemma CorsNamesSafe()
    ensures NameSafe("Access-Control-Allow-Origin") && NameSafe("Access-Control-Allow-Methods")
    ensures NameSafe("Access-Control-Max-Age") && NameSafe("Access-Control-Allow-Credentials")
  {
  }

  lemma FixedValuesSafe()
    ensures SafeText("*") && SafeText("POST, GET") && SafeText("1728000") && SafeText("true")
    ensures SafeText("pdf-render") && SafeText("close") && SafeText("sar\\")
  {
  }

  /** Every header field is safe when the content type and version are. */
  lemma HeaderFieldsSafe(contentType: string, contentLength: nat, version: string, pdfRender: bool)
    requires SafeText(contentType) && SafeText(version)
    ensures var fs := HeaderFields(contentType, contentLength, version, pdfRender);
            forall i :: 0 <= i < |fs| ==> FieldSafe(fs[i])
  {
    var fs := HeaderFields(contentType, contentLength, version, pdfRender);
    HeaderFieldNames(contentType, contentLength, version, pdfRender);
    FieldNamesWellFormed(pdfRender);
    FixedValuesSafe();
    DigitsSafe(NatToString(contentLength));
    SafeConcat("sar\\", version);
    forall i | 0 <= i < |fs|
      ensures FieldSafe(fs[i])
    {
      assert NameSafe(FieldNames(pdfRender)[i]);
    }
  }

  /** The header fields have colon-free names, no two alike. */
  lemma HeaderNamesDistinct(contentType: string, contentLength: nat, version: string, pdfRender: bool)
    ensures var fs := HeaderFields(contentType, contentLength, version, pdfRender);
            && (forall i :: 0 <= i < |fs| ==> ':' !in fs[i].name)
            && (forall i, j :: 0 <= i < j < |fs| ==> fs[i].name != fs[j].name)
  {
    var fs := HeaderFields(contentType, contentLength, version, pdfRender);
    var names := FieldNames(pdfRender);
    HeaderFieldNames(contentType, contentLength, version, pdfRender);
    FieldNamesWellFormed(pdfRender);
    forall i | 0 <= i < |fs|
      ensures ':' !in fs[i].name
    {
      NameSafeText(names[i]);
    }
    forall i, j | 0 <= i < j < |fs|
      ensures fs[i].name != fs[j].name
    {
      assert names[i] != names[j];
    }
  }

  /** A reader recovers the value of every header field from the head lines. */
  lemma HeaderFieldsRecovered(status: HttpStatusCode, contentType: string, contentLength: nat,
                              version: string, pdfRender: bool)
    ensures var fs := HeaderFields(contentType, contentLength, version, pdfRender);
            var fields := HeaderLines(status, contentType, contentLength, version, pdfRender)[1..];
            forall j :: 0 <= j < |fs| ==> FieldValue(fields, fs[j].name) == Some(fs[j].value)
  {
    var fs := HeaderFields(contentType, contentLength, version, pdfRender);
    assert HeaderLines(status, contentType, contentLength, version, pdfRender)[1..] == FieldLines(fs);
    HeaderNamesDistinct(contentType, contentLength, version, pdfRender);
    FieldValuesRecovered(fs);
  }

  lemma HeaderFieldRead(status: HttpStatusCode, contentType: string, contentLength: nat,
                        version: string, pdfRender: bool, j: nat, f: Field)
    requires j < |HeaderFields(contentType, contentLength, version, pdfRender)|
    requires HeaderFields(contentType, contentLength, version, pdfRender)[j] == f
    ensures FieldValue(HeaderLines(status, contentType, contentLength, version, pdfRender)[1..], f.name)
            == Some(f.value)
  {
    HeaderFieldsRecovered(status, contentType, contentLength, version, pdfRender);
  }

  /** The content's type and the server version read back from their fields. */
  lemma ContentTypeAndServerFields(status: HttpStatusCode, contentType: string, contentLength: nat,
                                   version: string, pdfRender: bool)
    ensures var fields := HeaderLines(status, contentType, contentLength, version, pdfRender)[1..];
            && FieldValue(fields, "Content-Type") == Some(contentType)
            && FieldValue(fields, "Server") == Some("sar\\" + version)
  {
    HeaderFieldRead(status, contentType, contentLength, version, pdfRender, 0,
                    Field("Content-Type", contentType));
    HeaderFieldRead(status, contentType, contentLength, version, pdfRender, 2,
                    Field("Server", "sar\\" + version));
  }

  /** The four CORS fields read back with their fixed values. */
  lemma CorsFields(status: HttpStatusCode, contentType: string, contentLength: nat,
                   version: string, pdfRender: bool)
    ensures var fields := HeaderLines(status, contentType, contentLength, version, pdfRender)[1..];
            && FieldValue(fields, "Access-Control-Allow-Origin") == Some("*")
            && FieldValue(fields, "Access-Control-Allow-Methods") == Some("POST, GET")
            && FieldValue(fields, "Access-Control-Max-Age") == Some("1728000")
            && FieldValue(fields, "Access-Control-Allow-Credentials") == Some("true")
  {
    CorsAllowFields(status, contentType, contentLength, version, pdfRender);
    CorsCacheFields(status, contentType, contentLength, version, pdfRender);
  }

  lemma CorsAllowFields(status: HttpStatusCode, contentType: string, contentLength: nat,
                        version: string, pdfRender: bool)
    ensures var fields := HeaderLines(status, contentType, contentLength, version, pdfRender)[1..];
            && FieldValue(fields, "Access-Control-Allow-Origin") == Some("*")
            && FieldValue(fields, "Access-Control-Allow-Methods") == Some("POST, GET")
  {
    HeaderFieldRead(status, contentType, contentLength, version, pdfRender, 3,
                    Field("Access-Control-Allow-Origin", "*"));
    HeaderFieldRead(status, contentType, contentLength, version, pdfRender, 4,
                    Field("Access-Control-Allow-Methods", "POST, GET"));
  }

  lemma CorsCacheFields(status: HttpStatusCode, contentType: string, contentLength: nat,
                        version: string, pdfRender: bool)
    ensures var fields := HeaderLines(status, contentType, contentLength, version, pdfRender)[1..];
            && FieldValue(fields, "Access-Control-Max-Age") == Some("1728000")
            && FieldValue(fields, "Access-Control-Allow-Credentials") == Some("true")
  {
    HeaderFieldRead(status, contentType, contentLength, version, pdfRender, 5,
                    Field("Access-Control-Max-Age", "1728000"));
    HeaderFieldRead(status, contentType, contentLength, version, pdfRender, 6,
                    Field("Access-Control-Allow-Credentials", "true"));
  }

  /** The connection is announced as closed. */
  lemma ConnectionField(status: HttpStatusCode, contentType: string, contentLength: nat,
                        version: string, pdfRender: bool)
    ensures var fields := HeaderLines(status, contentType, contentLength, version, pdfRender)[1..];
            FieldValue(fields, "Connection") == Some("close")
  {
    var fs := HeaderFields(contentType, contentLength, version, pdfRender);
    HeaderFieldsRecovered(status, contentType, contentLength, version, pdfRender);
    HeaderFieldNames(contentType, contentLength, version, pdfRender);
    assert fs[|fs| - 1] == Field("Connection", "close");
  }

  lemma HeaderLinesSafe(status: HttpStatusCode, contentType: string, contentLength: nat,
                        version: string, pdfRender: bool)
    requires IsAscii(contentType) && '\r' !in contentType
    requires IsAscii(version) && '\r' !in version
    ensures AllLinesSafe(HeaderLines(status, contentType, contentLength, version, pdfRender))
  {
    var fs := HeaderFields(contentType, contentLength, version, pdfRender);
    var lines := HeaderLines(status, contentType, contentLength, version, pdfRender);
    HeaderFieldsSafe(contentType, contentLength, version, pdfRender);
    forall i | 0 <= i < |lines|
      ensures LineSafe(lines[i])
    {
      if i == 0 {
        StatusLineSafe(status);
      } else {
        assert lines[i] == FieldLine(fs[i - 1]);
        FieldLineSafe(fs[i - 1]);
      }
    }
  }

  /** A reader of the bytes recovers the status line and fields in order and
      exactly the rendered body (section 4 of RFC 1945). */
  lemma ResponseWireFormat(resp: Response, version: string)
    requires Framed(resp, version)
    requires IsAscii(resp.content.contentType) && '\r' !in resp.content.contentType
    requires IsAscii(version) && '\r' !in version
    ensures var body := resp.content.render.bytes;
            ParseMessage(resp.bytes)
            == Some(Message(HeaderLines(resp.status, resp.content.contentType, |body|, version, resp.pdfRender),
                            body))
  {
    var body := resp.content.render.bytes;
    HeaderLinesSafe(resp.status, resp.content.contentType, |body|, version, resp.pdfRender);
    ParseJoinedLines(HeaderLines(resp.status, resp.content.contentType, |body|, version, resp.pdfRender), body);
  }

  /** A failed request reads `HTTP/1.0 500 SERVERERROR` on the wire, and its body
      is the rendered error page. */
  lemma FailureOnTheWire(request: Request, env: Env)
    requires Attempted(request, env).Failed?
    requires Respond(request, env).Built?
    requires IsAscii(Respond(request, env).response.content.contentType)
    requires '\r' !in Respond(request, env).response.content.contentType
    requires IsAscii(env.sarVersion) && '\r' !in env.sarVersion
    ensures var f := Attempted(request, env).failure;
            var page := env.display(Working(request), f, IntendedStatus(f));
            var m := ParseMessage(Respond(request, env).response.bytes);
            && m.Some?
            && m.value.lines[0] == "HTTP/1.0 500 SERVERERROR"
            && m.value.body == page.render.bytes
  {
    var resp := Respond(request, env).response;
    FailureAnsweredBy500(request, env);
    ResponseWireFormat(resp, env.sarVersion);
    StatusLines();
  }

}

=== FILE: http_session.dfy ===
/** The process-wide session store of `sar.Http.HttpSession`, modelled
    sequentially: the store is a value, and every operation takes it and returns
    the next one. `DateTime.Now` and `Guid.NewGuid()` come in as arguments.
    Times are `DateTime` ticks (100 ns). */
module HttpSession {
  import opened Wrappers

  const TicksPerDay: int := 864_000_000_000

  /** `DateTime.MaxValue.Ticks`. */
  const MaxTicks: int := 3_155_378_975_999_999_999

  type Ticks = t: int | 0 <= t <= MaxTicks

  /** `MAX_LIFE`: days from the last request to expiry. */
  const MaxLife: nat := 2

  /** An opaque object stored in a session's data bag. */
  datatype Value = Value(handle: nat)

  datatype Session = Session(id: string, creationDate: Ticks, lastRequest: Ticks, data: map<string, Value>)

  /** The static dictionary; it is created by the first `Contains` or `Find`. */
  datatype Store = Store(created: bool, sessions: map<string, Session>)

  const Initial: Store := Store(false, map[])

  predicate IsHexDigit(c: char) {
    '0' <= c <= '9' || 'a' <= c <= 'f'
  }

  /** `Guid.ToString("D")`: 32 lower-case hex digits in groups 8-4-4-4-12. */
  predicate IsGuidD(s: string) {
    && |s| == 36
    && (forall i :: 0 <= i < 36 && i in {8, 13, 18, 23} ==> s[i] == '-')
    && (forall i :: 0 <= i < 36 && i !in {8, 13, 18, 23} ==> IsHexDigit(s[i]))
  }

  /** Only the constructor adds entries, under the session's own ID. */
  predicate Valid(st: Store) {
    && (!st.created ==> st.sessions == map[])
    && (forall k :: k in st.sessions ==> st.sessions[k].id == k && IsGuidD(k))
  }

  lemma InitialValid()
    ensures Valid(Initial)
  {
  }

  function Allocate(st: Store): (r: Store)
    ensures r.created && r.sessions == st.sessions
  {
    st.(created := true)
  }

  datatype Probe = Probe(found: bool, store: Store)

  /** `Contains`: membership, without refreshing the session. */
  function Contains(st: Store, id: string): (r: Probe)
    ensures r.found <==> id in st.sessions
    ensures r.store.created && r.store.sessions == st.sessions
  {
    Probe(id in st.sessions, Allocate(st))
  }

  /** What `new HttpSession()` leaves behind. */
  datatype Registration = Registered(store: Store, session: Session) | NullStore | DuplicateId

  /** The constructor: a fresh session added to the dictionary under its ID. The
      clock is read twice, `now` for `CreationDate` and `later` for `LastRequest`;
      the two readings need not agree. Before the dictionary exists the `Add`
      dereferences null; a duplicate ID makes `Add` throw. */
  function NewSession(st: Store, freshId: string, now: Ticks, later: Ticks): (r: Registration)
    ensures !st.created <==> r.NullStore?
    ensures r.DuplicateId? <==> st.created && freshId in st.sessions
    ensures r.Registered? ==> && r.session.id == freshId
                              && r.session.creationDate == now && r.session.lastRequest == later
                              && r.session.data == map[]
                              && r.store.created
                              && r.store.sessions.Keys == st.sessions.Keys + {freshId}
                              && r.store.sessions[freshId] == r.session
                              && (forall k :: k in st.sessions ==> r.store.sessions[k] == st.sessions[k])
  {
    if !st.created then NullStore
    else if freshId in st.sessions then DuplicateId
    else
      var s := Session(freshId, now, later, map[]);
      Registered(st.(sessions := st.sessions[freshId := s]), s)
  }

  datatype Lookup = Lookup(store: Store, session: Session)

  /** `Find`: a known ID is refreshed to `now` and returned; an unknown one makes
      a new session under `freshId`, not under the requested ID, through the
      constructor, whose two clock readings are `now` and `later`. The session
      returned is a copy of the stored one, not a shared handle. */
  function Find(st: Store, id: string, now: Ticks, freshId: string, later: Ticks): (r: Lookup)
    requires Valid(st) && IsGuidD(freshId)
    requires id !in st.sessions ==> freshId !in st.sessions
    ensures Valid(r.store) && r.store.created
    ensures r.session.id in r.store.sessions && r.store.sessions[r.session.id] == r.session
    ensures id in st.sessions ==>
              && r.session.id == id
              && r.session.lastRequest == now
              && r.session.creationDate == st.sessions[id].creationDate
              && r.session.data == st.sessions[id].data
              && r.store.sessions.Keys == st.sessions.Keys
              && (forall k :: k in st.sessions && k != id ==> r.store.sessions[k] == st.sessions[k])
    ensures id !in st.sessions ==>
              && r.session.id == freshId
              && r.session.creationDate == now && r.session.lastRequest == later
              && r.session.data == map[]
              && r.store.sessions.Keys == st.sessions.Keys + {freshId}
              && (forall k :: k in st.sessions ==> r.store.sessions[k] == st.sessions[k])
  {
    var a := Allocate(st);
    if id in a.sessions then
      var s := a.sessions[id].(lastRequest := now);
      Lookup(a.(sessions := a.sessions[id := s]), s)
    else
      var reg := NewSession(a, freshId, now, later);
      Lookup(reg.store, reg.session)
  }

  /** `ExpiryDate`: `LastRequest.AddDays(MAX_LIFE)`, recomputed on every read;
      `None` where `AddDays` would pass `DateTime.MaxValue` and throw. */
  function ExpiryDate(s: Session): (r: Option<Ticks>)
    ensures r.Some? <==> s.lastRequest + MaxLife * TicksPerDay <= MaxTicks
    ensures r.Some? ==> r.value - s.lastRequest == 2 * TicksPerDay
  {
    var t := s.lastRequest + MaxLife * TicksPerDay;
    if t <= MaxTicks then Some(t) else None
  }

  /** Past its expiry date at `now`. */
  predicate Expired(s: Session, now: Ticks) {
    ExpiryDate(s).Some? && now > ExpiryDate(s).value
  }

  // ---------------------------------------------------------------------------
  // Properties

  /** `Find` keeps every session's ID and creation date. */
  lemma FindKeepsIdentity(st: Store, id: string, now: Ticks, freshId: string, later: Ticks)
    requires Valid(st) && IsGuidD(freshId)
    requires id !in st.sessions ==> freshId !in st.sessions
    ensures var r := Find(st, id, now, freshId, later);
            forall k :: k in st.sessions ==>
              && k in r.store.sessions
              && r.store.sessions[k].id == st.sessions[k].id
              && r.store.sessions[k].creationDate == st.sessions[k].creationDate
  {
  }

  /** On an unknown ID, the returned session is another one, and the requested ID
      stays unknown, whenever the generated ID differs from it. */
  lemma FindUnknownGivesOtherId(st: Store, id: string, now: Ticks, freshId: string, later: Ticks)
    requires Valid(st) && IsGuidD(freshId)
    requires id !in st.sessions && freshId !in st.sessions
    requires freshId != id
    ensures var r := Find(st, id, now, freshId, later);
            && r.session.id != id
            && !Contains(r.store, id).found
            && Contains(r.store, r.session.id).found
  {
  }

  /** An ID that is not a GUID in "D" form is never in the store, so `Find` on it
      always creates a session under another ID. */
  lemma FindMalformedId(st: Store, id: string, now: Ticks, freshId: string, later: Ticks)
    requires Valid(st) && IsGuidD(freshId) && freshId !in st.sessions
    requires !IsGuidD(id)
    ensures !Contains(st, id).found
    ensures var r := Find(st, id, now, freshId, later);
            r.session.id != id && !Contains(r.store, id).found
  {
  }

  /** `Find` on a known ID returns the stored session, and later time stamps only grow it. */
  lemma FindRefreshes(st: Store, id: string, now: Ticks, freshId: string, later: Ticks)
    requires Valid(st) && IsGuidD(freshId)
    requires id in st.sessions
    requires now >= st.sessions[id].lastRequest
    ensures var r := Find(st, id, now, freshId, later);
            && r.session == st.sessions[id].(lastRequest := now)
            && r.session.lastRequest >= st.sessions[id].lastRequest
            && r.store.sessions == st.sessions[id := r.session]
  {
  }

  /** After `Find` the expiry date slides to two days after the clock reading that
      stamped `LastRequest`: `now` on a hit, the constructor's second reading on a miss. */
  lemma FindSlidesExpiry(st: Store, id: string, now: Ticks, freshId: string, later: Ticks)
    requires Valid(st) && IsGuidD(freshId)
    requires id !in st.sessions ==> freshId !in st.sessions
    requires (if id in st.sessions then now else later) + 2 * TicksPerDay <= MaxTicks
    ensures ExpiryDate(Find(st, id, now, freshId, later).session)
            == Some((if id in st.sessions then now else later) + 2 * TicksPerDay)
  {
  }

  /** Nothing evicts: an expired session is still found, and refreshed. */
  lemma ExpiredStillFound(st: Store, id: string, now: Ticks, freshId: string, later: Ticks)
    requires Valid(st) && IsGuidD(freshId)
    requires id in st.sessions && Expired(st.sessions[id], now)
    ensures Contains(st, id).found
    ensures Find(st, id, now, freshId, later).session.id == id
    ensures !Expired(Find(st, id, now, freshId, later).session, now)
  {
  }

  /** The constructor's error paths: the dictionary must exist and the ID must be new. */
  lemma NewSessionBeforeAllocation(freshId: string, now: Ticks, later: Ticks)
    ensures NewSession(Initial, freshId, now, later) == NullStore
  {
  }

  /** A session created by `Find` is the constructor's session, registered in the
      created store. */
  lemma FindCreatesLikeConstructor(st: Store, id: string, now: Ticks, freshId: string, later: Ticks)
    requires Valid(st) && IsGuidD(freshId)
    requires id !in st.sessions && freshId !in st.sessions
    ensures var reg := NewSession(Allocate(st), freshId, now, later);
            reg.Registered? && Find(st, id, now, freshId, later) == Lookup(reg.store, reg.session)
  {
  }

}

=== FILE: s7_adapter_sim.dfy ===
/** `sar.S7Siemens.Adapter_Sim.ReadBytesRaw`: the simulated PLC answers every
    read with a counting pattern, byte `i` being `i % byte.MaxValue`. */
module S7AdapterSim {
  import opened Ascii

  /** `byte.MaxValue`. */
  const ByteMaxValue: nat := 255

  method ReadBytesRaw(byteLength: nat) returns (result: seq<byte>)
    ensures |result| == byteLength
    ensures forall i :: 0 <= i < |result| ==> result[i] as int == i % ByteMaxValue
    ensures forall i :: 0 <= i < |result| ==> result[i] != 255
    ensures forall i :: 0 <= i < |result| && i < 255 ==> result[i] as int == i
    ensures forall i :: 0 <= i && i + 255 < |result| ==> result[i] == result[i + 255]
  {
    var a := new byte[byteLength];
    for i := 0 to a.Length
      invariant forall j :: 0 <= j < i ==> a[j] as int == j % ByteMaxValue
    {
      a[i] := (i % ByteMaxValue) as byte;
    }
    result := a[..];
  }

}

=== FILE: text.dfy ===
/** String operations the HTTP pipeline relies on: ASCII lower-casing (the model
    of `ToLower`), suffix tests, `StringHelper.TrimEnd`, ordinal
    `String.Replace`, and decimal rendering of non-negative integers. */
module Text {

  function LowerChar(c: char): char {
    if 'A' <= c <= 'Z' then (c as int + 32) as char else c
  }

  /** `ToLower`, restricted to ASCII letters. */
  function ToLower(s: string): (r: string)
    ensures |r| == |s|
    ensures forall i :: 0 <= i < |s| ==> r[i] == LowerChar(s[i])
  {
    seq(|s|, i requires 0 <= i < |s| => LowerChar(s[i]))
  }

  predicate EndsWith(s: string, suffix: string) {
    |suffix| <= |s| && s[|s| - |suffix|..] == suffix
  }

  predicate StartsWith(s: string, prefix: string) {
    |prefix| <= |s| && s[..|prefix|] == prefix
  }

  /** `StringHelper.TrimEnd(s, n)`: drops the last `n` characters. */
  function TrimEnd(s: string, n: nat): (r: string)
    requires n <= |s|
    ensures |r| == |s| - n
    ensures r + s[|r|..] == s
  {
    s[..|s| - n]
  }

  /** `pat` occurs in `s` starting at index `i`. */
  predicate OccursAt(s: string, pat: string, i: int) {
    0 <= i && i + |pat| <= |s| && s[i..i + |pat|] == pat
  }

  /** No occurrence of `pat` starts before index `k`. */
  predicate NoneBefore(s: string, pat: string, k: int) {
    forall i :: 0 <= i < k ==> !OccursAt(s, pat, i)
  }

  /** Ordinal `String.Replace(pat, rep)`: every non-overlapping occurrence of `pat`,
      scanning left to right, is replaced by `rep`. `pat` must not be empty. */
  function ReplaceAll(s: string, pat: string, rep: string): string
    requires |pat| > 0
    decreases |s|
  {
    if |s| < |pat| then s
    else if OccursAt(s, pat, 0) then rep + ReplaceAll(s[|pat|..], pat, rep)
    else [s[0]] + ReplaceAll(s[1..], pat, rep)
  }

  lemma OccursShift(s: string, pat: string, i: int)
    requires |s| > 0 && 0 <= i
    ensures OccursAt(s[1..], pat, i) <==> OccursAt(s, pat, i + 1)
  {
    if 0 <= i && i + 1 + |pat| <= |s| {
      assert s[1..][i..i + |pat|] == s[i + 1..i + 1 + |pat|];
    }
  }

  /** Where no occurrence starts at the front, `ReplaceAll` copies the first character. */
  lemma ReplaceAllSkip(s: string, pat: string, rep: string)
    requires |pat| > 0 && |s| > 0
    requires !OccursAt(s, pat, 0)
    ensures ReplaceAll(s, pat, rep) == [s[0]] + ReplaceAll(s[1..], pat, rep)
  {
    if |s| < |pat| {
      ReplaceAllShort(s[1..], pat, rep);
      assert [s[0]] + s[1..] == s;
    }
  }

  /** Where an occurrence starts at the front, `ReplaceAll` replaces it. */
  lemma ReplaceAllHit(s: string, pat: string, rep: string)
    requires |pat| > 0
    requires OccursAt(s, pat, 0)
    ensures ReplaceAll(s, pat, rep) == rep + ReplaceAll(s[|pat|..], pat, rep)
  {
    assert s[..|pat|] == pat;
  }

  lemma ReplaceAllShort(s: string, pat: string, rep: string)
    requires |pat| > 0 && |s| < |pat|
    ensures ReplaceAll(s, pat, rep) == s
  {
  }

  lemma {:induction false} ReplaceAllAbsent(s: string, pat: string, rep: string)
    requires |pat| > 0
    requires forall i :: !OccursAt(s, pat, i)
    ensures ReplaceAll(s, pat, rep) == s
    decreases |s|
  {
    if |s| > 0 {
      ReplaceAllSkip(s, pat, rep);
      forall i
        ensures !OccursAt(s[1..], pat, i)
      {
        if 0 <= i {
          OccursShift(s, pat, i);
        }
      }
      ReplaceAllAbsent(s[1..], pat, rep);
      assert [s[0]] + s[1..] == s;
    }
  }

  /** A prefix in which no occurrence of `pat` starts is copied unchanged. */
  lemma {:induction false} ReplaceAllKeepsPrefix(a: string, b: string, pat: string, rep: string)
    requires |pat| > 0
    requires NoneBefore(a + b, pat, |a|)
    ensures ReplaceAll(a + b, pat, rep) == a + ReplaceAll(b, pat, rep)
    decreases |a|
  {
    if |a| == 0 {
      assert a + b == b;
    } else {
      var s := a + b;
      NoEarlierInTail(s, pat, |a|);
      assert s[1..] == a[1..] + b;
      calc {
        ReplaceAll(s, pat, rep);
        { ReplaceAllSkip(s, pat, rep); }
        [s[0]] + ReplaceAll(s[1..], pat, rep);
        { ReplaceAllKeepsPrefix(a[1..], b, pat, rep); }
        [s[0]] + (a[1..] + ReplaceAll(b, pat, rep));
        { assert [s[0]] + a[1..] == a; }
        a + ReplaceAll(b, pat, rep);
      }
    }
  }

  lemma NoEarlierInTail(s: string, pat: string, k: nat)
    requires 0 < k <= |s|
    requires NoneBefore(s, pat, k)
    ensures NoneBefore(s[1..], pat, k - 1)
  {
    forall i | 0 <= i < k - 1
      ensures !OccursAt(s[1..], pat, i)
    {
      OccursShift(s, pat, i);
    }
  }

  /** When the first occurrence of `pat` starts right after `prefix`, `ReplaceAll`
      keeps the text before it, substitutes that occurrence and carries on after it. */
  lemma ReplaceAllAtBoundary(prefix: string, pat: string, suffix: string, rep: string)
    requires |pat| > 0
    requires NoneBefore(prefix + pat + suffix, pat, |prefix|)
    ensures ReplaceAll(prefix + pat + suffix, pat, rep) == prefix + rep + ReplaceAll(suffix, pat, rep)
  {
    var s := prefix + pat + suffix;
    assert s == prefix + (pat + suffix);
    ReplaceAllKeepsPrefix(prefix, pat + suffix, pat, rep);
    assert (pat + suffix)[..|pat|] == pat;
    ReplaceAllHit(pat + suffix, pat, rep);
    assert (pat + suffix)[|pat|..] == suffix;
  }

  function DigitChar(d: nat): (c: char)
    requires d < 10
    ensures '0' <= c <= '9'
  {
    ('0' as int + d) as char
  }

  function DigitValue(c: char): nat {
    if '0' <= c <= '9' then c as int - '0' as int else 0
  }

  predicate IsDigits(s: string) {
    forall i :: 0 <= i < |s| ==> '0' <= s[i] <= '9'
  }

  /** `int.ToString()` of a non-negative value: decimal digits, no leading zero. */
  function NatToString(n: nat): (r: string)
    ensures |r| >= 1 && IsDigits(r)
    ensures |r| > 1 ==> r[0] != '0'
    decreases n
  {
    if n < 10 then [DigitChar(n)] else NatToString(n / 10) + [DigitChar(n % 10)]
  }

  /** Reads a string of decimal digits as a number; the reader a client applies
      to a numeric header value. */
  function ParseNat(s: string): nat
    decreases |s|
  {
    if |s| == 0 then 0 else 10 * ParseNat(s[..|s| - 1]) + DigitValue(s[|s| - 1])
  }

  lemma {:induction false} ParseNatToString(n: nat)
    ensures ParseNat(NatToString(n)) == n
    decreases n
  {
    var s := NatToString(n);
    if n < 10 {
      assert s[..|s| - 1] == [];
    } else {
      ParseNatToString(n / 10);
      assert s[..|s| - 1] == NatToString(n / 10);
    }
  }

}

=== FILE: wrappers.dfy ===
/** The optional-value datatype used where the C# code returns or stores null. */
module Wrappers {

  datatype Option<+T> = None | Some(value: T)

}
